=== FILE: README.md ===
# Seed-and-load scripts for two MySQL schemas, modelled in Dafny

The repository holds two near-duplicate command-line scripts. `app/main.py` seeds a
commerce schema with users (`Usuarios`), products (`Productos`) and the purchases
that link them (`UsuarioProductos`). It then drives an endless load against them:
phone-number updates, purchase inserts, and a mixed round of update, count and
join. `app/test.py` seeds a university schema with careers (`carrera`), courses
(`curso`), students (`estudiante`), enrolments (`matricula`) and grades (`nota`).
It then runs one reporting query, `query_1`, in a loop.

This project models the useful part of both scripts and leaves out the SQL plumbing:

- **Store** (`store.dfy`): the database as an immutable value. Each table is a
  sequence of rows. Rows are appended or updated in place, never deleted, so the
  row at position i has the AUTO_INCREMENT key i + 1.
- **Entropy** (`entropy.dfy`): every draw from Python's `random` and from Faker
  comes from an explicit `Source`. A source is an arbitrary infinite tape of
  numbers and strings, read through a cursor.
- **Planner** (`planner.dfy`): the byte budget and its floor division by the
  500-byte row estimate.
- **Commerce** (`commerce.dfy`): the commerce planner, the three generation
  loops, `populate_data` as one all-or-nothing transaction, `count_records`
  and the `populate` guard. The schema's UNIQUE email and its foreign keys are
  enforced by the insert functions.
- **CommerceLoad** (`commerce_load.dfy`): one iteration of each of `slow_update`,
  `slow_insert` and `mixed_load` as a step function. A state machine (Idle,
  Running, Stopped, Crashed) drives a step per iteration and checks a
  cancellation flag at the top of each iteration.
- **Text** (`text.dfy`): decimal rendering of naturals, two-digit zero padding,
  and the parser that inverts them.
- **University** (`university.dfy`): the planner with its `min_rows` floor, the
  five generation loops, the batch inserts committed table by table, and the guard.
- **UniversityQuery** (`university_query.dfy`): one iteration of `query_1`, proved
  equal to a set-based join.

## Model

| member | source | states |
|---|---|---|
| Planner.BaseRows | app/main.py:83-85 | the row count is the floor of the byte target divided by 500: `500·n <= bytes < 500·n + 500` |
| Planner.BaseRowsMonotone | app/test.py:103-104 | a larger MB target never yields a smaller base row count |
| Planner.BaseRowsJump | app/main.py:83-85 | any positive base row count is at least 2097, because it needs at least 1 MB |
| Commerce.PlanFor | app/main.py:82-89 | users are the floor of rows/10, products the floor of rows/20, purchases equal rows; each floor division is stated as a pair of bounds |
| Commerce.PlanExample20Mb | app/main.py:83-89 | 20 MB plans 41943 rows: 4194 users, 2097 products and 41943 purchases |
| Commerce.PlanExample10MiB | app/main.py:83-89 | 10 MiB plans 20971 rows: 2097 users, 1048 products and 20971 purchases |
| Commerce.PlanNonNegative | app/main.py:83-89 | a non-negative target plans non-negative counts for every table |
| Commerce.PlanMonotone | app/main.py:83-89 | every planned count is non-decreasing in the target |
| Commerce.PlanParentsPositive | app/main.py:85-126 | whenever purchases are planned, users and products are planned too, so `random.choice` never sees an empty id list |
| Commerce.InsertUsuario | app/main.py:17-25 | an insert succeeds iff the email is not already in the table; success appends the row and keeps emails distinct |
| Commerce.InsertPurchase | app/main.py:37-47 | an insert succeeds iff both foreign keys name existing rows; otherwise the error is a foreign-key violation; referential integrity is preserved |
| Commerce.UniqueEmail | app/main.py:98 | a returned email was not handed out earlier in the run; the only failure is exhaustion of unique values |
| Commerce.UniqueEmailFinds | app/main.py:98 | the unique proxy returns an email iff one of the first 999 of its 1000 provider calls yields a fresh one; the 1000th result is never checked |
| Commerce.Paragraph | app/main.py:109 | a description never exceeds 200 characters |
| Commerce.SynthProducto | app/main.py:105-112 | price in [10.00, 500.00] (hundredths), stock in [1, 1000], description at most 200 characters |
| Commerce.SynthPurchase | app/main.py:122-129 | fails iff an id list is empty; otherwise the user and product ids come from the lists, cantidad is in [1, 5] and metodo_pago is one of the four methods |
| Commerce.InsertUsuarios | app/main.py:95-101 | n users are appended and earlier rows kept; emails stay pairwise distinct; a duplicate-key failure needs a user that existed before the run; on an empty table with a tape whose strings are pairwise distinct the loop always succeeds |
| Commerce.InsertProductos | app/main.py:104-115 | n products are appended and earlier rows kept; each new product is within range |
| Commerce.InsertPurchases | app/main.py:117-132 | succeeds iff n = 0 or both parent tables are non-empty; n purchases are appended, each referencing existing users and products with in-range fields; integrity is preserved |
| Commerce.PopulateData | app/main.py:82-132 | on success, each table grows by exactly its planned count, earlier rows are kept, new rows are in range, there are no dangling references and emails are distinct; a failure is only unique-email exhaustion or a collision with a pre-existing user; with no users yet and a tape of pairwise distinct strings the run succeeds |
| Commerce.CountRecords | app/main.py:74-80 | each count is the number of ids in its table |
| Commerce.Populate | app/main.py:151-159 | the database is returned unchanged iff every table has at least one row; otherwise a successful run adds exactly 4194 users, 2097 products and 41943 purchases on top of the rows already there, keeping them and keeping integrity; a failure is only Faker running out of unique emails or a collision with an existing user; with no users yet and a tape of pairwise distinct strings it does generate and succeeds; a fresh database ends intact with distinct emails |
| CommerceLoad.ReadRegistry | app/main.py:179-180 | the id lists read at start hold exactly the existing user and product ids |
| CommerceLoad.SetTelefono | app/main.py:185-188 | only the telefono of the row with the given id changes; every other row and table is unchanged; an unknown id changes nothing |
| CommerceLoad.OnlyTelefonosTransitive | app/main.py:181-190 | phone-only changes compose across iterations |
| CommerceLoad.JoinAllMembers | app/main.py:243-252 | a row is in the unlimited join iff some purchase of that user, with an existing product, yields it |
| CommerceLoad.JoinAll | app/main.py:243-252 | the unlimited join has at most as many rows as there are purchases |
| CommerceLoad.JoinAllCounts | app/main.py:243-252 | each row occurs in the join exactly as many times as there are purchases of the user whose product exists and yields that row: one row per matching purchase |
| CommerceLoad.JoinLimited | app/main.py:243-252 | the join returns min(3, full join size) rows, a sub-multiset of the full join, the whole join when it has at most 3 rows, each row produced by a purchase of the queried user joined with its product |
| CommerceLoad.UpdateStep | app/main.py:182-190 | succeeds iff the user id list is non-empty; the updated id is from the list; only phones change; the chosen user now has the new phone and every other user keeps its row |
| CommerceLoad.InsertStep | app/main.py:203-214 | an empty id list gives an empty-choice error; with a valid registry it succeeds iff both lists are non-empty and appends one in-range purchase whose keys come from the lists |
| CommerceLoad.MixedStep | app/main.py:227-254 | update as in slow_update: only the chosen user's phone changes, to the new one; the product count equals the product table size; the join is a sub-multiset of at most 3 rows of the second drawn user's full join, and all of it when it has at most 3 rows |
| CommerceLoad.Step | app/main.py:182-254 | an update or mixed iteration sets the phone of one user drawn from the registry and leaves every other user's row as it was; an insert iteration only appends its purchase; with a registry read from the same database the only error is the empty choice |
| CommerceLoad.Start | app/main.py:178-181 | starting moves Idle to Running with zero completed iterations and a registry that holds exactly the ids of the existing users and products |
| CommerceLoad.Tick | app/main.py:181-192 | a raised flag stops the loop with the database untouched; without it the loop never stops by itself: it runs one iteration, keeps that iteration's database, cursor and registry and counts one more, or crashes with that iteration's error and keeps the last database |
| CommerceLoad.DriveSettled | app/main.py:191-192 | a stopped or crashed loop stays as it is |
| CommerceLoad.DriveCountsIterations | app/main.py:181-192 | a started loop never returns to idle; while still running it keeps its registry and has completed one iteration per flag |
| CommerceLoad.DriveAppend | app/main.py:181-190 | running through two flag sequences equals running through their concatenation |
| CommerceLoad.CancelKeepsLastState | app/main.py:181-192 | after an interrupt the state is exactly the database and iteration count of the last completed iteration |
| CommerceLoad.UpdateLoopRunsUntilCancelled | app/main.py:181-190 | with a non-empty registry and no interrupt, the loop is still running after any number of iterations, each completed |
| CommerceLoad.UpdateLoopOnlyTouchesTelefonos | app/main.py:226-254 | however long slow_update or mixed_load runs, only user phone numbers change, and a user whose id was not read into the registry keeps its row |
| CommerceLoad.InsertLoopKeepsReferences | app/main.py:199-216 | however long slow_insert runs, users and products are unchanged, earlier purchases are kept, nothing dangles, every completed iteration adds exactly one purchase, and the only possible crash is an empty registry |
| Entropy.RandInt | app/main.py:111 | the drawn value lies in the closed range [lo, hi] |
| Entropy.Choice | app/main.py:125 | fails iff the list is empty; otherwise the value is an element of the list |
| Entropy.RandIntReaches | app/main.py:127 | every value of the range can be drawn |
| Entropy.PickReaches | app/main.py:128 | every element of the list can be picked |
| Entropy.NumberedIsInjective | app/main.py:98 | a tape whose strings are pairwise distinct exists, so the success condition of the users loop can be met |
| Store.Ids | app/main.py:118 | the id list holds exactly the keys of the table's rows |
| Store.IdsOnce | app/main.py:118 | each key of the table occurs exactly once among the listed ids, and nothing else occurs |
| Store.Insert | app/main.py:122-130 | the new row gets the next key; earlier keys keep their rows |
| Store.Replace | app/main.py:185-188 | only the row with the given key changes; an unknown key changes nothing |
| Text.Decimal | app/test.py:111 | the decimal rendering is non-empty digits without a leading zero |
| Text.DecimalRoundTrip | app/test.py:111 | parsing the decimal rendering gives back the number |
| Text.DecimalInjective | app/test.py:121 | distinct numbers render differently |
| Text.Pad2 | app/test.py:149 | a two-digit zero-padded rendering that parses back to the number |
| Text.NumberedNamesDistinct | app/test.py:133 | numbered names with different numbers differ, whatever letter follows |
| University.NumRows | app/test.py:103-105 | the row count is at least both the base row count and the floor, and equals one of them |
| University.FloorWins | app/test.py:105 | the floor is the result iff the byte budget plans no more rows than the floor |
| University.NumRowsExamples | app/test.py:89-105 | 20 MB with floor 500 gives 41943 rows; a zero or negative target gives 500 |
| University.NumRowsMonotone | app/test.py:103-105 | the row count is non-decreasing in the target |
| University.Fecha | app/test.py:149 | the date is 10 characters of the shape 2025-MM-DD and parses back to its month and day |
| University.InsertEstudiantes | app/test.py:23-30 | the batch is accepted iff every id_carrera names a career; an accepted batch keeps integrity |
| University.InsertCarreras | app/test.py:111-113 | the career batch is appended whole after the earlier careers; no other table changes; integrity is kept |
| University.InsertCursos | app/test.py:119-125 | the course batch is appended whole after the earlier courses; no other table changes; integrity is kept |
| University.InsertMatriculas | app/test.py:38-47 | the batch is accepted iff every student and course id exists; an accepted batch keeps integrity |
| University.InsertNotas | app/test.py:48-55 | the batch is accepted iff every id_matricula exists; an accepted batch keeps integrity |
| University.CarreraNames | app/test.py:111 | 50 names, the i-th being "Carrera " followed by the digits of i with no leading zero, which parse back to i |
| University.CarreraNamesDistinct | app/test.py:111 | the 50 career names are pairwise distinct |
| University.GenCursos | app/test.py:119-124 | 500 courses, the i-th named Curso_{i}_{A-Z}, each with 1 to 5 credits |
| University.GenEstudiantes | app/test.py:131-135 | n students, the i-th (from 0) named Estudiante_{i}_{a-z}, each with id_carrera in [1, 50] |
| University.EstudianteNamesDistinct | app/test.py:133 | generated student names are pairwise distinct |
| University.GenMatriculas | app/test.py:144-152 | each student 1..n gets between 1 and 5 enrolments, so the total is in [n, 5n]; course ids are in [1, 500]; dates are valid |
| University.GenNotas | app/test.py:163-165 | one grade per enrolment id, in the order the ids were listed, each in [0.00, 20.00] |
| University.SeedCatalog | app/test.py:108-126 | 50 careers named as generated and 500 courses named Curso_{i}_{A-Z} with 1 to 5 credits are appended; the other tables are untouched; integrity is preserved |
| University.SeedEnrolments | app/test.py:128-158 | n students named by position, each in a career 1..50, and between n and 5n enrolments, 1 to 5 per student id 1..n, are appended after the earlier rows; the other tables are untouched; integrity is kept |
| University.SeedNotas | app/test.py:160-168 | whatever order the server lists the enrolment ids in, the new grades name every enrolment of the table exactly as often as it occurs (once), each in [0.00, 20.00]; earlier grades are kept and nothing else changes |
| University.GradesOncePerMatricula | app/test.py:163-165 | when the grades name the enrolment ids in any order, there are as many grades as enrolments, each enrolment has exactly one grade, and every grade names an existing enrolment |
| University.PopulateData | app/test.py:89-168 | no batch is rejected; careers grow by 50, courses by 500, students by n, enrolments by n to 5n, and grades by the whole enrolment table, naming each enrolment once in any order; new rows are in range and named as generated; integrity is preserved; a fresh database gets exactly one grade per enrolment |
| University.CountRecords | app/test.py:81-87 | each count is the number of ids in its table |
| University.Populate | app/test.py:200-208 | the database is unchanged iff every table has a row; otherwise a run keeps every existing row of the five tables and adds 50 careers, 500 courses, 41943 students, 41943 to 209715 enrolments and one grade per enrolment row; integrity is kept; a fresh database ends with one grade per enrolment |
| UniversityQuery.ReachedIsReference | app/test.py:220-248 | the names reached grade by grade are the names of the set-based join over grades in [10, 15] |
| UniversityQuery.Query1 | app/test.py:219-250 | the printed count is the number of distinct student names reached through a grade in [10, 15] |
| UniversityQuery.NamesOfStudentsAreReferenceNames | app/test.py:226-248 | every name of a student reached through a grade in [10, 15] is a name the join returns |
| UniversityQuery.ReferenceNamesAreNamesOfStudents | app/test.py:226-248 | every name the join returns belongs to a student reached through a grade in [10, 15] |
| UniversityQuery.Query1CountsStudents | app/test.py:226-250 | with distinct student names, as the generator makes them, the count is the number of distinct students reached |

## Left out

- Engine creation, connection strings, `database_exists`, `create_database`, `create_tables`, `reset`, `init` and the DDL text: server plumbing. The DDL's UNIQUE and FOREIGN KEY constraints are kept, as checks in the insert functions.
- Click wiring, console output and `time.sleep` pacing: no effect on the data.
- The `while True` loops and `KeyboardInterrupt`: replaced by a cancellation flag read at the top of each iteration. An interrupt that lands mid-statement rolls that iteration's transaction back, which is the same observable state.
- `slow_select` in `app/main.py` and the repetition of `query_1`: both are read-only loops; one `query_1` iteration is modelled.
- Faker's generators are not modelled: names, phones, addresses, words and emails are opaque strings from the source tape. Faker's unique proxy is modelled as it behaves: up to 1000 provider calls, every result but the last checked.
- Python's pseudo-random generator: replaced by an arbitrary tape. Every property holds for every possible draw sequence, within the column semantics below.
- Commerce.InsertUsuario: the UNIQUE email is exact string equality. MySQL compares it under the column collation; the MySQL 8 default, `utf8mb4_0900_ai_ci`, is case- and accent-insensitive, so "A@x.com" and "a@x.com" collide on the server but not in the model. The failure kinds and the success condition stated by `Commerce.InsertUsuarios`, `Commerce.PopulateData` and `Commerce.Populate` therefore assume no two drawn emails are equal under that collation while differing as strings.
- Column widths: VARCHAR(250) and the other declared widths are not modelled. Strict mode would reject longer values; the model assumes the drawn strings fit, as Faker's short values do.
- Timestamps from `NOW()` (registration, creation, purchase): clock values are not kept.
- Floating point: prices and grades are integer hundredths in their rounded ranges. The uniform distribution is not modelled.
- Auto-increment gaps: InnoDB does not reuse keys consumed by a rolled-back transaction. Here a rollback restores the whole value, so keys stay dense.
- Commerce.PlanNonNegative: requires a non-negative target. A negative target plans negative counts, which Python's `range` runs zero times (`Planner.Times`).
- CommerceLoad.JoinLimited: the query has LIMIT 3 without ORDER BY, so the server may return any three matching rows. The model returns the first three in id order; the contract states only the bound, that the rows are a sub-multiset of the full join, and that a join of at most three rows is returned whole.
- Partial population: the code runs a full generation on top of the existing rows; `Populate` follows it and generates whenever any table is empty.
- Row order of queries without ORDER BY: `Store.Ids` lists keys in key order, and contracts that use it speak only of which keys occur. The grade batch of `University.SeedNotas` takes the server's order as a parameter (`RowOrder`, any rearrangement).
- Defects in `app/test.py`, noted rather than modelled. The model follows the evident intent:
  - `mysql` and `string` are used but never imported (app/test.py:95, app/test.py:121), so `populate_data` stops with a NameError before inserting anything.
  - `populate_data` connects to a database named `universidad` on localhost, while the other commands use `escuela_db`. The model uses one store.
  - `count_records` counts tables named after the dictionary keys (`carreras`, …), while the DDL creates `carrera`, …, so the guard would fail on a missing table. The model counts the created tables.
  - Foreign keys are the positions 1..n of the rows just built. On a non-empty database these still name existing rows, because keys are dense, but they point at older rows rather than the new ones. The per-student enrolment property is stated about the new enrolments and student ids 1..n.

=== FILE: commerce.dfy ===
/**
  The commerce schema of `app/main.py`: users, products and the purchases
  that link them, the volume planner that turns a size in MB into row
  counts, the generator that fills the three tables inside one transaction,
  and the `populate` guard that skips generation on a populated database.
  Registration, creation and purchase timestamps (`NOW()`) are not kept.
*/
module Commerce {
  import opened Results
  import opened Store
  import opened Entropy
  import opened Planner

  /** A `Usuarios` row; `email` is a UNIQUE column. */
  datatype Usuario = Usuario(nombre: string, email: string, telefono: string, direccion: string)

  /** A `Productos` row; `precio` is kept in hundredths (DECIMAL(10,2)). */
  datatype Producto = Producto(nombre: string, descripcion: string, precio: int, stock: int)

  /** A `UsuarioProductos` row: a purchase, with foreign keys into both parents. */
  datatype UsuarioProducto = UsuarioProducto(usuarioId: int, productoId: int, cantidad: int, metodoPago: string)

  datatype Db = Db(usuarios: Table<Usuario>, productos: Table<Producto>, usuarioProductos: Table<UsuarioProducto>)

  const MetodosPago: seq<string> := ["efectivo", "tarjeta", "yape", "plin"]

  /** Length cap passed to Faker's paragraph generator for descriptions. */
  const DescripcionMaxChars: nat := 200

  /** Provider calls Faker's unique proxy makes before it gives up. */
  const UniqueAttempts: nat := 1000

  // ---------------------------------------------------------------------------
  // Volume planner

  datatype Plan = Plan(numRows: int, usuarios: int, productos: int, relaciones: int)

  /**
    The planner: `num_rows` is the byte target floor-divided by the row
    size; users are a tenth of it, products a twentieth, and purchases are
    `num_rows` itself, all with floor division.
  */
  function PlanFor(targetMb: int): (p: Plan)
    ensures RowBytes * p.numRows <= TargetBytes(targetMb) < RowBytes * p.numRows + RowBytes
    ensures 10 * p.usuarios <= p.numRows < 10 * p.usuarios + 10
    ensures 20 * p.productos <= p.numRows < 20 * p.productos + 20
    ensures p.relaciones == p.numRows
  {
    var numRows := BaseRows(targetMb);
    Plan(numRows, numRows / 10, numRows / 20, numRows)
  }

  lemma PlanExample20Mb()
    ensures PlanFor(20) == Plan(41943, 4194, 2097, 41943)
  {
  }

  lemma PlanExample10MiB()
    ensures PlanFor(10) == Plan(20971, 2097, 1048, 20971)
  {
  }

  /** A non-negative target plans non-negative counts. */
  lemma PlanNonNegative(targetMb: int)
    requires targetMb >= 0
    ensures var p := PlanFor(targetMb);
      p.numRows >= 0 && p.usuarios >= 0 && p.productos >= 0 && p.relaciones >= 0
  {
  }

  /** A larger target never plans fewer rows of any table. */
  lemma PlanMonotone(a: int, b: int)
    requires a <= b
    ensures PlanFor(a).numRows <= PlanFor(b).numRows
    ensures PlanFor(a).usuarios <= PlanFor(b).usuarios
    ensures PlanFor(a).productos <= PlanFor(b).productos
    ensures PlanFor(a).relaciones <= PlanFor(b).relaciones
  {
    BaseRowsMonotone(a, b);
    var ra := PlanFor(a).numRows;
    var rb := PlanFor(b).numRows;
    FloorDivMonotone(ra, rb, 10);
    FloorDivMonotone(ra, rb, 20);
  }

  /**
    Whenever purchases are planned, users and products are planned too: a
    positive row count needs at least 1 MB, which plans 2097 rows. Hence
    `random.choice` never meets an empty id list during a run.
  */
  lemma PlanParentsPositive(targetMb: int)
    requires PlanFor(targetMb).relaciones > 0
    ensures PlanFor(targetMb).usuarios > 0 && PlanFor(targetMb).productos > 0
  {
    BaseRowsJump(targetMb);
  }

  // ---------------------------------------------------------------------------
  // Constraints the schema declares

  /** The email values present in a `Usuarios` table. */
  function Emails(t: Table<Usuario>): set<string> {
    set i | 0 <= i < |t| :: t[i].email
  }

  /** No two users share an email: the UNIQUE constraint of `Usuarios.email`. */
  predicate EmailsDistinct(t: Table<Usuario>) {
    forall i, j :: 0 <= i < j < |t| ==> t[i].email != t[j].email
  }

  /** A purchase whose foreign keys name existing rows. */
  predicate PurchaseRefsOk(db: Db, c: UsuarioProducto) {
    HasId(db.usuarios, c.usuarioId) && HasId(db.productos, c.productoId)
  }

  /** No purchase references a missing user or product. */
  predicate Intact(db: Db) {
    forall i :: 0 <= i < |db.usuarioProductos| ==> PurchaseRefsOk(db, db.usuarioProductos[i])
  }

  /** `INSERT INTO Usuarios`: rejected when the email is already taken. */
  function InsertUsuario(t: Table<Usuario>, u: Usuario): (r: Result<Table<Usuario>>)
    ensures r.Ok? <==> u.email !in Emails(t)
    ensures r.Err? ==> r.error == DuplicateKey
    ensures r.Ok? ==> r.value == Insert(t, u)
    ensures r.Ok? && EmailsDistinct(t) ==> EmailsDistinct(r.value)
  {
    if u.email in Emails(t) then Err(DuplicateKey) else Ok(Insert(t, u))
  }

  /** `INSERT INTO UsuarioProductos`: rejected when a foreign key names no row. */
  function InsertPurchase(db: Db, c: UsuarioProducto): (r: Result<Db>)
    ensures r.Ok? <==> PurchaseRefsOk(db, c)
    ensures r.Err? ==> r.error == ForeignKeyViolation
    ensures r.Ok? ==> r.value == db.(usuarioProductos := Insert(db.usuarioProductos, c))
    ensures r.Ok? && Intact(db) ==> Intact(r.value)
  {
    if PurchaseRefsOk(db, c) then Ok(db.(usuarioProductos := Insert(db.usuarioProductos, c)))
    else Err(ForeignKeyViolation)
  }

  // ---------------------------------------------------------------------------
  // Row synthesis

  /**
    Faker's unique email. The proxy calls the provider up to `attempts`
    times and checks every result but the last against the emails already
    handed out in this run: the first fresh one is returned, and when the
    checked ones are all taken the last call's result is discarded and the
    proxy gives up.
  */
  function UniqueEmail(src: Source, k: nat, seen: set<string>, attempts: nat): (d: Drawn<Result<string>>)
    ensures d.next >= k
    ensures d.value.Ok? ==> d.value.value !in seen
    ensures d.value.Err? ==> d.value.error == UniquenessExhausted
    decreases attempts
  {
    if attempts == 0 then Drawn(Err(UniquenessExhausted), k)
    else if attempts == 1 then Drawn(Err(UniquenessExhausted), k + 1)
    else if src.text(k) !in seen then Drawn(Ok(src.text(k)), k + 1)
    else UniqueEmail(src, k + 1, seen, attempts - 1)
  }

  /**
    The proxy finds an email exactly when one of the first `attempts - 1`
    draws is fresh. With 1000 attempts, 999 candidates are checked: a tape
    whose first 999 draws are taken gives up even when the 1000th is fresh.
  */
  lemma {:induction false} UniqueEmailFinds(src: Source, k: nat, seen: set<string>, attempts: nat)
    ensures UniqueEmail(src, k, seen, attempts).value.Ok? <==>
      exists j :: k <= j < k + attempts - 1 && src.text(j) !in seen
    decreases attempts
  {
    if attempts >= 2 && src.text(k) in seen {
      UniqueEmailFinds(src, k + 1, seen, attempts - 1);
      if exists j :: k <= j < k + attempts - 1 && src.text(j) !in seen {
        var j :| k <= j < k + attempts - 1 && src.text(j) !in seen;
        assert j != k;
      }
    }
  }

  /** Faker's paragraph with a character cap: never longer than the cap. */
  function Paragraph(src: Source, k: nat): (s: string)
    ensures |s| <= DescripcionMaxChars
  {
    var t := src.text(k);
    if |t| <= DescripcionMaxChars then t else t[..DescripcionMaxChars]
  }

  predicate ProductoInRange(p: Producto) {
    1000 <= p.precio <= 50000 && 1 <= p.stock <= 1000 && |p.descripcion| <= DescripcionMaxChars
  }

  predicate PurchaseInRange(c: UsuarioProducto) {
    1 <= c.cantidad <= 5 && c.metodoPago in MetodosPago
  }

  /** A product: a word, a capped paragraph, a price of 10.00 to 500.00 and a stock of 1 to 1000. */
  function SynthProducto(src: Source, k: nat): (d: Drawn<Producto>)
    ensures ProductoInRange(d.value)
    ensures d.next == k + 4
  {
    Drawn(Producto(src.text(k), Paragraph(src, k + 1), RandInt(src, k + 2, 1000, 50000), RandInt(src, k + 3, 1, 1000)), k + 4)
  }

  /** One purchase row drawn from the two id lists; IndexError when either is empty. */
  function SynthPurchase(src: Source, k: nat, usuarioIds: seq<int>, productoIds: seq<int>): (d: Drawn<Result<UsuarioProducto>>)
    ensures d.value.Ok? <==> |usuarioIds| > 0 && |productoIds| > 0
    ensures d.value.Err? ==> d.value.error == EmptyChoice
    ensures d.value.Ok? ==> d.value.value.usuarioId in usuarioIds && d.value.value.productoId in productoIds
    ensures d.value.Ok? ==> PurchaseInRange(d.value.value)
    ensures d.next == k + 4
  {
    var u := Choice(src, k, usuarioIds);
    var p := Choice(src, k + 1, productoIds);
    if u.Err? || p.Err? then Drawn(Err(EmptyChoice), k + 4)
    else Drawn(Ok(UsuarioProducto(u.value, p.value, RandInt(src, k + 2, 1, 5), Pick(src, k + 3, MetodosPago))), k + 4)
  }

  // ---------------------------------------------------------------------------
  // Relational generator

  /** The users loop: `n` inserts, each with a name, a unique email, a phone and an address. */
  method InsertUsuarios(us: Table<Usuario>, n: nat, src: Source, k0: nat)
    returns (r: Result<Table<Usuario>>, k: nat)
    ensures r.Ok? ==> |r.value| == |us| + n && Extends(us, r.value)
    ensures r.Ok? && EmailsDistinct(us) ==> EmailsDistinct(r.value)
    ensures r.Err? ==> r.error == UniquenessExhausted || (r.error == DuplicateKey && |us| > 0)
    ensures |us| == 0 && TextInjective(src) ==> r.Ok?
  {
    var t := us;
    var seen: set<string> := {};
    k := k0;
    var i := 0;
    while i < n
      invariant 0 <= i <= n
      invariant |t| == |us| + i && Extends(us, t)
      invariant forall j :: |us| <= j < |t| ==> t[j].email in seen
      invariant EmailsDistinct(us) ==> EmailsDistinct(t)
      invariant TextInjective(src) ==> forall e :: e in seen ==> exists c: nat :: c < k && src.text(c) == e
      invariant |us| == 0 ==> forall j :: 0 <= j < |t| ==> t[j].email in seen
    {
      var nombre := src.text(k);
      var email := UniqueEmail(src, k + 1, seen, UniqueAttempts);
      if TextInjective(src) {
        assert src.text(k + 1) !in seen;
        assert email == Drawn(Ok(src.text(k + 1)), k + 2);
      }
      if email.value.Err? {
        return Err(UniquenessExhausted), email.next;
      }
      var u := Usuario(nombre, email.value.value, src.text(email.next), src.text(email.next + 1));
      k := email.next + 2;
      var ins := InsertUsuario(t, u);
      if ins.Err? {
        return Err(DuplicateKey), k;
      }
      seen := seen + {u.email};
      t := ins.value;
      i := i + 1;
    }
    r := Ok(t);
  }

  /** The products loop: `n` inserts with values in the drawn ranges. */
  method InsertProductos(ps: Table<Producto>, n: nat, src: Source, k0: nat)
    returns (t: Table<Producto>, k: nat)
    ensures |t| == |ps| + n && Extends(ps, t)
    ensures forall j :: |ps| <= j < |t| ==> ProductoInRange(t[j])
  {
    t := ps;
    k := k0;
    var i := 0;
    while i < n
      invariant 0 <= i <= n
      invariant |t| == |ps| + i && Extends(ps, t)
      invariant forall j :: |ps| <= j < |t| ==> ProductoInRange(t[j])
    {
      var p := SynthProducto(src, k);
      t := Insert(t, p.value);
      k := p.next;
      i := i + 1;
    }
  }

  /**
    The purchases loop. Both id lists are read once, after users and
    products are in place, and every purchase draws its foreign keys from
    them.
  */
  method InsertPurchases(db: Db, n: nat, src: Source, k0: nat)
    returns (r: Result<Db>, k: nat)
    ensures r.Ok? <==> n == 0 || (|db.usuarios| > 0 && |db.productos| > 0)
    ensures r.Err? ==> r.error == EmptyChoice
    ensures r.Ok? ==> r.value.usuarios == db.usuarios && r.value.productos == db.productos
    ensures r.Ok? ==> |r.value.usuarioProductos| == |db.usuarioProductos| + n
    ensures r.Ok? ==> Extends(db.usuarioProductos, r.value.usuarioProductos)
    ensures r.Ok? ==> forall j :: |db.usuarioProductos| <= j < |r.value.usuarioProductos| ==>
      PurchaseRefsOk(db, r.value.usuarioProductos[j]) && PurchaseInRange(r.value.usuarioProductos[j])
    ensures r.Ok? && Intact(db) ==> Intact(r.value)
  {
    var usuarioIds := Ids(db.usuarios);
    var productoIds := Ids(db.productos);
    var cur := db;
    k := k0;
    var i := 0;
    while i < n
      invariant 0 <= i <= n
      invariant cur.usuarios == db.usuarios && cur.productos == db.productos
      invariant |cur.usuarioProductos| == |db.usuarioProductos| + i
      invariant Extends(db.usuarioProductos, cur.usuarioProductos)
      invariant forall j :: |db.usuarioProductos| <= j < |cur.usuarioProductos| ==>
        PurchaseRefsOk(db, cur.usuarioProductos[j]) && PurchaseInRange(cur.usuarioProductos[j])
      invariant Intact(db) ==> Intact(cur)
      invariant i > 0 ==> |usuarioIds| > 0 && |productoIds| > 0
    {
      var c := SynthPurchase(src, k, usuarioIds, productoIds);
      k := c.next;
      if c.value.Err? {
        return Err(EmptyChoice), k;
      }
      var ins := InsertPurchase(cur, c.value.value);
      assert ins.Ok?;
      cur := ins.value;
      i := i + 1;
    }
    r := Ok(cur);
  }

  /** The rows a run adds keep their stated ranges. */
  predicate NewRowsInRange(db: Db, db': Db)
    requires |db.productos| <= |db'.productos| && |db.usuarioProductos| <= |db'.usuarioProductos|
  {
    && (forall j :: |db.productos| <= j < |db'.productos| ==> ProductoInRange(db'.productos[j]))
    && (forall j :: |db.usuarioProductos| <= j < |db'.usuarioProductos| ==>
         PurchaseRefsOk(db', db'.usuarioProductos[j]) && PurchaseInRange(db'.usuarioProductos[j]))
  }

  /**
    `populate_data`: users, then products, then purchases, inside one
    transaction; any failure rolls the whole run back, so an `Err` leaves
    the database as it was. A run never fails for want of parent rows or on
    a foreign key; it can fail only when Faker runs out of fresh emails or
    when a fresh email collides with a user that was already there.
  */
  method PopulateData(db: Db, targetMb: int, src: Source) returns (r: Result<Db>)
    ensures r.Ok? ==> var p := PlanFor(targetMb);
      && |r.value.usuarios| == |db.usuarios| + Times(p.usuarios)
      && |r.value.productos| == |db.productos| + Times(p.productos)
      && |r.value.usuarioProductos| == |db.usuarioProductos| + Times(p.relaciones)
    ensures r.Ok? ==> (Extends(db.usuarios, r.value.usuarios) && Extends(db.productos, r.value.productos)
      && Extends(db.usuarioProductos, r.value.usuarioProductos))
    ensures r.Ok? ==> NewRowsInRange(db, r.value)
    ensures r.Ok? && Intact(db) ==> Intact(r.value)
    ensures r.Ok? && EmailsDistinct(db.usuarios) ==> EmailsDistinct(r.value.usuarios)
    ensures r.Err? ==> r.error == UniquenessExhausted || (r.error == DuplicateKey && |db.usuarios| > 0)
    ensures |db.usuarios| == 0 && TextInjective(src) ==> r.Ok?
  {
    var plan := PlanFor(targetMb);
    var us, k := InsertUsuarios(db.usuarios, Times(plan.usuarios), src, 0);
    if us.Err? {
      return Err(us.error);
    }
    var ps, k' := InsertProductos(db.productos, Times(plan.productos), src, k);
    var filled := Db(us.value, ps, db.usuarioProductos);
    if Times(plan.relaciones) > 0 {
      PlanParentsPositive(targetMb);
    }
    assert Intact(db) ==> Intact(filled) by {
      if Intact(db) {
        forall i | 0 <= i < |filled.usuarioProductos|
          ensures PurchaseRefsOk(filled, filled.usuarioProductos[i])
        {
          assert PurchaseRefsOk(db, db.usuarioProductos[i]);
        }
      }
    }
    var cs, k'' := InsertPurchases(filled, Times(plan.relaciones), src, k');
    r := Ok(cs.value);
  }

  // ---------------------------------------------------------------------------
  // Counting and the populate guard

  datatype Counts = Counts(usuarios: nat, productos: nat, usuarioProductos: nat)

  /** `count_records`: `SELECT COUNT(*)` on each table. */
  function CountRecords(db: Db): (c: Counts)
    ensures c.usuarios == |Ids(db.usuarios)|
    ensures c.productos == |Ids(db.productos)|
    ensures c.usuarioProductos == |Ids(db.usuarioProductos)|
  {
    Counts(|db.usuarios|, |db.productos|, |db.usuarioProductos|)
  }

  predicate AllPopulated(c: Counts) {
    c.usuarios > 0 && c.productos > 0 && c.usuarioProductos > 0
  }

  predicate Fresh(db: Db) {
    db.usuarios == [] && db.productos == [] && db.usuarioProductos == []
  }

  /**
    `populate`: when every table already has a row, nothing is generated and
    the database is returned as it was; otherwise, even when only some
    tables are empty, a 20 MB run is generated on top of what is there.
  */
  method Populate(db: Db, src: Source) returns (r: Result<Db>)
    ensures r == Ok(db) <==> AllPopulated(CountRecords(db))
    ensures Fresh(db) ==> r.Ok? || r == Err(UniquenessExhausted)
    ensures Fresh(db) && r.Ok? ==> CountRecords(r.value) == Counts(4194, 2097, 41943)
    ensures Fresh(db) && r.Ok? ==> Intact(r.value) && EmailsDistinct(r.value.usuarios)
    ensures !AllPopulated(CountRecords(db)) && r.Ok? ==>
      CountRecords(r.value) == Counts(|db.usuarios| + 4194, |db.productos| + 2097, |db.usuarioProductos| + 41943)
    ensures !AllPopulated(CountRecords(db)) && r.Ok? ==>
      && Extends(db.usuarios, r.value.usuarios) && Extends(db.productos, r.value.productos)
      && Extends(db.usuarioProductos, r.value.usuarioProductos)
    ensures r.Ok? && Intact(db) ==> Intact(r.value)
    ensures r.Err? ==> r.error == UniquenessExhausted || (r.error == DuplicateKey && |db.usuarios| > 0)
    ensures |db.usuarios| == 0 && TextInjective(src) ==> r.Ok? && r != Ok(db)
  {
    if AllPopulated(CountRecords(db)) {
      return Ok(db);
    }
    PlanExample20Mb();
    r := PopulateData(db, DefaultTargetMb, src);
  }
}

=== FILE: commerce_load.dfy ===
/**
  The load commands of `app/main.py` — `slow_update`, `slow_insert` and
  `mixed_load` — as one step function per iteration and a cancellable loop
  around it. Each command reads its id lists once at start; every iteration
  then runs as its own transaction. The five-second pause between
  iterations has no effect on the data and is not modelled; the operator's
  Ctrl-C is a flag checked at the top of each iteration.
*/
module CommerceLoad {
  import opened Results
  import opened Store
  import opened Entropy
  import opened Commerce

  /** The id lists a load command reads before its loop starts. */
  datatype Registry = Registry(usuarioIds: seq<int>, productoIds: seq<int>)

  /** `SELECT id FROM Usuarios` and `SELECT id FROM Productos`. */
  function ReadRegistry(db: Db): (reg: Registry)
    ensures forall id :: id in reg.usuarioIds <==> HasId(db.usuarios, id)
    ensures forall id :: id in reg.productoIds <==> HasId(db.productos, id)
  {
    Registry(Ids(db.usuarios), Ids(db.productos))
  }

  /** Every id in the registry still names a row. */
  predicate RegistryValid(reg: Registry, db: Db) {
    && (forall i :: 0 <= i < |reg.usuarioIds| ==> HasId(db.usuarios, reg.usuarioIds[i]))
    && (forall i :: 0 <= i < |reg.productoIds| ==> HasId(db.productos, reg.productoIds[i]))
  }

  // ---------------------------------------------------------------------------
  // The update: `UPDATE Usuarios SET telefono = :phone WHERE id = :id`

  function SetTelefono(db: Db, uid: int, phone: string): (r: Db)
    ensures r.productos == db.productos && r.usuarioProductos == db.usuarioProductos
    ensures |r.usuarios| == |db.usuarios|
    ensures HasId(db.usuarios, uid) ==> Get(r.usuarios, uid) == Get(db.usuarios, uid).(telefono := phone)
    ensures forall id :: HasId(db.usuarios, id) && id != uid ==> Get(r.usuarios, id) == Get(db.usuarios, id)
  {
    if HasId(db.usuarios, uid)
    then db.(usuarios := Replace(db.usuarios, uid, Get(db.usuarios, uid).(telefono := phone)))
    else db
  }

  /** `b` differs from `a` at most in the `telefono` column of `Usuarios`. */
  predicate OnlyTelefonos(a: Db, b: Db) {
    && b.productos == a.productos
    && b.usuarioProductos == a.usuarioProductos
    && |b.usuarios| == |a.usuarios|
    && forall i :: 0 <= i < |a.usuarios| ==> b.usuarios[i] == a.usuarios[i].(telefono := b.usuarios[i].telefono)
  }

  lemma OnlyTelefonosTransitive(a: Db, b: Db, c: Db)
    requires OnlyTelefonos(a, b) && OnlyTelefonos(b, c)
    ensures OnlyTelefonos(a, c)
  {
  }

  // ---------------------------------------------------------------------------
  // The join of `mixed_load`

  /** A row of `SELECT p.nombre, up.cantidad, up.metodo_pago`. */
  datatype JoinRow = JoinRow(nombre: string, cantidad: int, metodoPago: string)

  /** The join row a purchase contributes when it matches `uid` and its product exists. */
  predicate JoinsAs(productos: Table<Producto>, c: UsuarioProducto, uid: int, row: JoinRow) {
    && c.usuarioId == uid
    && HasId(productos, c.productoId)
    && row == JoinRow(Get(productos, c.productoId).nombre, c.cantidad, c.metodoPago)
  }

  /**
    The inner join of the purchases of user `uid` with their products,
    without the row limit, in purchase id order.
  */
  function JoinAll(purchases: Table<UsuarioProducto>, productos: Table<Producto>, uid: int): (rows: seq<JoinRow>)
    ensures |rows| <= |purchases|
    decreases |purchases|
  {
    if |purchases| == 0 then []
    else
      var c := purchases[|purchases| - 1];
      JoinAll(purchases[..|purchases| - 1], productos, uid)
        + (if c.usuarioId == uid && HasId(productos, c.productoId)
           then [JoinRow(Get(productos, c.productoId).nombre, c.cantidad, c.metodoPago)]
           else [])
  }

  /** The number of purchases of `uid` that produce `row`, counted one by one. */
  function Matches(purchases: Table<UsuarioProducto>, productos: Table<Producto>, uid: int, row: JoinRow): nat
    decreases |purchases|
  {
    if |purchases| == 0 then 0
    else
      Matches(purchases[..|purchases| - 1], productos, uid, row)
        + (if JoinsAs(productos, purchases[|purchases| - 1], uid, row) then 1 else 0)
  }

  /** Each purchase that matches contributes exactly one copy of its row to the join. */
  lemma {:induction false} JoinAllCounts(purchases: Table<UsuarioProducto>, productos: Table<Producto>, uid: int, row: JoinRow)
    ensures multiset(JoinAll(purchases, productos, uid))[row] == Matches(purchases, productos, uid, row)
    decreases |purchases|
  {
    if |purchases| > 0 {
      JoinAllCounts(purchases[..|purchases| - 1], productos, uid, row);
    }
  }

  /** A row is in the join exactly when some purchase of `uid` produces it. */
  lemma {:induction false} JoinAllMembers(purchases: Table<UsuarioProducto>, productos: Table<Producto>, uid: int, row: JoinRow)
    ensures row in JoinAll(purchases, productos, uid) <==>
      exists i :: 0 <= i < |purchases| && JoinsAs(productos, purchases[i], uid, row)
    decreases |purchases|
  {
    if |purchases| > 0 {
      var init := purchases[..|purchases| - 1];
      var c := purchases[|purchases| - 1];
      JoinAllMembers(init, productos, uid, row);
      if row in JoinAll(purchases, productos, uid) {
        if row in JoinAll(init, productos, uid) {
          var i :| 0 <= i < |init| && JoinsAs(productos, init[i], uid, row);
          assert purchases[i] == init[i];
        } else {
          assert JoinsAs(productos, purchases[|purchases| - 1], uid, row);
        }
      }
      if exists i :: 0 <= i < |purchases| && JoinsAs(productos, purchases[i], uid, row) {
        var i :| 0 <= i < |purchases| && JoinsAs(productos, purchases[i], uid, row);
        if i < |init| {
          assert init[i] == purchases[i];
        }
      }
    }
  }

  /** The `LIMIT 3` of the join. */
  const JoinLimit: nat := 3

  function Min(a: int, b: int): int {
    if a <= b then a else b
  }

  /**
    The join as `mixed_load` runs it: at most three rows, each of them a row
    of the full join, and all of them when the full join has three or fewer.
    Without ORDER BY the server may pick any three; this model takes the
    first three in purchase id order.
  */
  function JoinLimited(db: Db, uid: int): (rows: seq<JoinRow>)
    ensures |rows| == Min(JoinLimit, |JoinAll(db.usuarioProductos, db.productos, uid)|)
    ensures |JoinAll(db.usuarioProductos, db.productos, uid)| <= JoinLimit ==>
      rows == JoinAll(db.usuarioProductos, db.productos, uid)
    ensures multiset(rows) <= multiset(JoinAll(db.usuarioProductos, db.productos, uid))
    ensures forall row :: row in rows ==>
      exists i :: 0 <= i < |db.usuarioProductos| && JoinsAs(db.productos, db.usuarioProductos[i], uid, row)
  {
    var all := JoinAll(db.usuarioProductos, db.productos, uid);
    var rows := if |all| <= JoinLimit then all else all[..JoinLimit];
    assert all == rows + all[|rows|..];
    forall row | row in rows
      ensures exists i :: 0 <= i < |db.usuarioProductos| && JoinsAs(db.productos, db.usuarioProductos[i], uid, row)
    {
      JoinAllMembers(db.usuarioProductos, db.productos, uid, row);
    }
    rows
  }

  // ---------------------------------------------------------------------------
  // One iteration of each load command

  datatype Report =
    | Updated(uid: int, phone: string)
    | Inserted(purchase: UsuarioProducto)
    | MixedRound(uid: int, phone: string, productCount: nat, uidJoin: int, joined: seq<JoinRow>)

  /** The state after one iteration, the next unused draw, and what it printed. */
  datatype StepOutcome = StepOutcome(db: Db, next: nat, report: Report)

  /**
    One `slow_update` iteration: pick a user id from the registry, draw a
    phone number, overwrite that user's `telefono`. An empty registry makes
    `random.choice` raise, and nothing is written.
  */
  function UpdateStep(db: Db, reg: Registry, src: Source, k: nat): (r: Result<StepOutcome>)
    ensures r.Ok? <==> |reg.usuarioIds| > 0
    ensures r.Err? ==> r.error == EmptyChoice
    ensures r.Ok? ==> r.value.report.Updated? && r.value.report.uid in reg.usuarioIds
    ensures r.Ok? ==> OnlyTelefonos(db, r.value.db)
    ensures r.Ok? && HasId(db.usuarios, r.value.report.uid) ==>
      Get(r.value.db.usuarios, r.value.report.uid).telefono == r.value.report.phone
    ensures r.Ok? ==> forall id :: HasId(db.usuarios, id) && id != r.value.report.uid ==>
      Get(r.value.db.usuarios, id) == Get(db.usuarios, id)
  {
    var uid := Choice(src, k, reg.usuarioIds);
    if uid.Err? then Err(EmptyChoice)
    else
      var phone := src.text(k + 1);
      Ok(StepOutcome(SetTelefono(db, uid.value, phone), k + 2, Updated(uid.value, phone)))
  }

  /**
    One `slow_insert` iteration: a purchase with both foreign keys drawn
    from the registry. With a registry read from the same database, the
    insert never trips a foreign key.
  */
  function InsertStep(db: Db, reg: Registry, src: Source, k: nat): (r: Result<StepOutcome>)
    ensures |reg.usuarioIds| == 0 || |reg.productoIds| == 0 ==> r == Err(EmptyChoice)
    ensures RegistryValid(reg, db) ==> (r.Ok? <==> |reg.usuarioIds| > 0 && |reg.productoIds| > 0)
    ensures r.Ok? ==> r.value.report.Inserted?
    ensures r.Ok? ==> var c := r.value.report.purchase;
      && c.usuarioId in reg.usuarioIds && c.productoId in reg.productoIds
      && PurchaseInRange(c) && PurchaseRefsOk(db, c)
      && r.value.db == db.(usuarioProductos := db.usuarioProductos + [c])
  {
    var c := SynthPurchase(src, k, reg.usuarioIds, reg.productoIds);
    if c.value.Err? then Err(EmptyChoice)
    else
      var ins := InsertPurchase(db, c.value.value);
      if ins.Err? then Err(ins.error)
      else Ok(StepOutcome(ins.value, c.next, Inserted(c.value.value)))
  }

  /**
    One `mixed_load` iteration: the update of `slow_update`, then
    `SELECT COUNT(*) FROM Productos`, then the limited join for a second
    user id drawn from the registry, all in one transaction.
  */
  function MixedStep(db: Db, reg: Registry, src: Source, k: nat): (r: Result<StepOutcome>)
    ensures r.Ok? <==> |reg.usuarioIds| > 0
    ensures r.Err? ==> r.error == EmptyChoice
    ensures r.Ok? ==> r.value.report.MixedRound? && OnlyTelefonos(db, r.value.db)
    ensures r.Ok? && HasId(db.usuarios, r.value.report.uid) ==>
      Get(r.value.db.usuarios, r.value.report.uid).telefono == r.value.report.phone
    ensures r.Ok? ==> forall id :: HasId(db.usuarios, id) && id != r.value.report.uid ==>
      Get(r.value.db.usuarios, id) == Get(db.usuarios, id)
    ensures r.Ok? ==> var m := r.value.report;
      && m.uid in reg.usuarioIds && m.uidJoin in reg.usuarioIds
      && m.productCount == |db.productos|
      && |m.joined| <= JoinLimit
      && |m.joined| == Min(JoinLimit, |JoinAll(db.usuarioProductos, db.productos, m.uidJoin)|)
      && (|JoinAll(db.usuarioProductos, db.productos, m.uidJoin)| <= JoinLimit ==>
           m.joined == JoinAll(db.usuarioProductos, db.productos, m.uidJoin))
      && multiset(m.joined) <= multiset(JoinAll(db.usuarioProductos, db.productos, m.uidJoin))
      && forall row :: row in m.joined ==>
           exists i :: 0 <= i < |db.usuarioProductos| && JoinsAs(db.productos, db.usuarioProductos[i], m.uidJoin, row)
  {
    var upd := UpdateStep(db, reg, src, k);
    if upd.Err? then Err(upd.error)
    else
      var db' := upd.value.db;
      var count := |db'.productos|;
      var uidJoin := Pick(src, upd.value.next, reg.usuarioIds);
      var joined := JoinLimited(db', uidJoin);
      Ok(StepOutcome(db', upd.value.next + 1,
        MixedRound(upd.value.report.uid, upd.value.report.phone, count, uidJoin, joined)))
  }

  // ---------------------------------------------------------------------------
  // The cancellable loop

  datatype Pattern = SlowUpdate | SlowInsert | MixedLoad

  /**
    One iteration of the chosen command. The update and mixed commands touch
    only the phone of a user in the registry; the insert command only
    appends one purchase. With a registry read from the same database, the
    only error is the empty choice.
  */
  function Step(p: Pattern, db: Db, reg: Registry, src: Source, k: nat): (r: Result<StepOutcome>)
    ensures p != SlowInsert && r.Ok? ==> OnlyTelefonos(db, r.value.db)
    ensures p != SlowInsert && r.Ok? ==> r.value.report.Updated? || r.value.report.MixedRound?
    ensures p != SlowInsert && r.Ok? ==> r.value.report.uid in reg.usuarioIds
    ensures p != SlowInsert && r.Ok? ==> forall id :: HasId(db.usuarios, id) && id != r.value.report.uid ==>
      Get(r.value.db.usuarios, id) == Get(db.usuarios, id)
    ensures p != SlowInsert && r.Ok? && HasId(db.usuarios, r.value.report.uid) ==>
      Get(r.value.db.usuarios, r.value.report.uid).telefono == r.value.report.phone
    ensures p == SlowInsert && r.Ok? ==> r.value.report.Inserted?
    ensures p == SlowInsert && r.Ok? ==>
      r.value.db == db.(usuarioProductos := db.usuarioProductos + [r.value.report.purchase])
    ensures RegistryValid(reg, db) && r.Err? ==> r.error == EmptyChoice
  {
    match p
    case SlowUpdate => UpdateStep(db, reg, src, k)
    case SlowInsert => InsertStep(db, reg, src, k)
    case MixedLoad => MixedStep(db, reg, src, k)
  }

  /**
    Idle before the command starts; Running with the registry, the next
    draw and the number of completed iterations; Stopped after the
    operator's interrupt; Crashed when an iteration raised. Every state
    carries the database as the last completed iteration left it.
  */
  datatype LoadState =
    | Idle(db: Db)
    | Running(db: Db, reg: Registry, cursor: nat, done: nat)
    | Stopped(db: Db, done: nat)
    | Crashed(db: Db, error: Failure)

  /** The command starts: it reads the id lists, then enters its loop. */
  function Start(s: LoadState): (t: LoadState)
    ensures s.Idle? ==> t.Running? && t.db == s.db && t.done == 0 && RegistryValid(t.reg, t.db)
    ensures s.Idle? ==> forall id ::
      && (id in t.reg.usuarioIds <==> HasId(s.db.usuarios, id))
      && (id in t.reg.productoIds <==> HasId(s.db.productos, id))
    ensures !s.Idle? ==> t == s
  {
    if s.Idle? then Running(s.db, ReadRegistry(s.db), 0, 0) else s
  }

  /**
    The top of one loop iteration: a raised cancellation flag stops the
    loop with the database untouched; otherwise one iteration runs to
    completion, or raises and leaves the database as it was.
  */
  function Tick(p: Pattern, src: Source, s: LoadState, cancel: bool): (t: LoadState)
    ensures !s.Running? ==> t == s
    ensures s.Running? && cancel ==> t == Stopped(s.db, s.done)
    ensures s.Running? && t.Running? ==> t.reg == s.reg && t.done == s.done + 1
    ensures s.Running? && t.Crashed? ==> t.db == s.db
    ensures s.Running? && !cancel ==> !t.Stopped?
    ensures s.Running? && !cancel && t.Running? ==> var o := Step(p, s.db, s.reg, src, s.cursor);
      o.Ok? && t.db == o.value.db && t.cursor == o.value.next
    ensures s.Running? && !cancel && t.Crashed? ==> var o := Step(p, s.db, s.reg, src, s.cursor);
      o.Err? && t.error == o.error
  {
    if !s.Running? then s
    else if cancel then Stopped(s.db, s.done)
    else
      match Step(p, s.db, s.reg, src, s.cursor)
      case Ok(o) => Running(o.db, s.reg, o.next, s.done + 1)
      case Err(e) => Crashed(s.db, e)
  }

  /** The loop driven by the flag observed at the top of each iteration. */
  function Drive(p: Pattern, src: Source, s: LoadState, flags: seq<bool>): LoadState
    decreases |flags|
  {
    if |flags| == 0 then s else Drive(p, src, Tick(p, src, s, flags[0]), flags[1..])
  }

  /** Once stopped or crashed, the loop stays put. */
  lemma {:induction false} DriveSettled(p: Pattern, src: Source, s: LoadState, flags: seq<bool>)
    requires !s.Running?
    ensures Drive(p, src, s, flags) == s
    decreases |flags|
  {
    if |flags| > 0 {
      DriveSettled(p, src, s, flags[1..]);
    }
  }

  /**
    A started loop never returns to Idle; while it is still running it keeps
    the registry it read at start and has completed one iteration per flag.
  */
  lemma {:induction false} DriveCountsIterations(p: Pattern, src: Source, s: LoadState, flags: seq<bool>)
    requires s.Running?
    ensures !Drive(p, src, s, flags).Idle?
    ensures Drive(p, src, s, flags).Running? ==>
      Drive(p, src, s, flags).reg == s.reg && Drive(p, src, s, flags).done == s.done + |flags|
    decreases |flags|
  {
    if |flags| > 0 {
      var t := Tick(p, src, s, flags[0]);
      if t.Running? {
        DriveCountsIterations(p, src, t, flags[1..]);
      } else {
        DriveSettled(p, src, t, flags[1..]);
      }
    }
  }

  /** Driving through `a` then `b` is driving through `a + b`. */
  lemma {:induction false} DriveAppend(p: Pattern, src: Source, s: LoadState, a: seq<bool>, b: seq<bool>)
    ensures Drive(p, src, s, a + b) == Drive(p, src, Drive(p, src, s, a), b)
    decreases |a|
  {
    if |a| > 0 {
      assert (a + b)[0] == a[0] && (a + b)[1..] == a[1..] + b;
      DriveAppend(p, src, Tick(p, src, s, a[0]), a[1..], b);
    } else {
      assert a + b == b;
    }
  }

  /**
    An interrupt leaves exactly the state of the last completed iteration:
    whatever follows the raised flag, the loop is stopped on the database
    and iteration count it had when the flag was seen.
  */
  lemma CancelKeepsLastState(p: Pattern, src: Source, s: LoadState, before: seq<bool>, after: seq<bool>)
    requires Drive(p, src, s, before).Running?
    ensures var t := Drive(p, src, s, before);
      Drive(p, src, s, before + [true] + after) == Stopped(t.db, t.done)
  {
    var t := Drive(p, src, s, before);
    DriveAppend(p, src, s, before, [true] + after);
    assert before + [true] + after == before + ([true] + after);
    assert Drive(p, src, t, [true] + after) == Drive(p, src, Stopped(t.db, t.done), after);
    DriveSettled(p, src, Stopped(t.db, t.done), after);
  }

  /**
    The loop never ends by itself: with a non-empty user registry and no
    interrupt, the update and mixed loops are still running after any
    number of iterations, each of them completed.
  */
  lemma {:induction false} UpdateLoopRunsUntilCancelled(p: Pattern, src: Source, s: LoadState, flags: seq<bool>)
    requires p == SlowUpdate || p == MixedLoad
    requires s.Running? && |s.reg.usuarioIds| > 0
    requires forall i :: 0 <= i < |flags| ==> !flags[i]
    ensures Drive(p, src, s, flags).Running?
    ensures Drive(p, src, s, flags).done == s.done + |flags|
    decreases |flags|
  {
    if |flags| > 0 {
      var t := Tick(p, src, s, flags[0]);
      assert t.Running?;
      UpdateLoopRunsUntilCancelled(p, src, t, flags[1..]);
    }
  }

  /**
    However long `slow_update` or `mixed_load` runs and wherever it stops,
    products and purchases are untouched, users differ only in their phone
    numbers, and a user whose id is not in the registry keeps its row.
  */
  lemma {:induction false} UpdateLoopOnlyTouchesTelefonos(p: Pattern, src: Source, s: LoadState, flags: seq<bool>)
    requires p == SlowUpdate || p == MixedLoad
    requires s.Running?
    ensures OnlyTelefonos(s.db, Drive(p, src, s, flags).db)
    ensures forall id :: HasId(s.db.usuarios, id) && id !in s.reg.usuarioIds ==>
      Get(Drive(p, src, s, flags).db.usuarios, id) == Get(s.db.usuarios, id)
    decreases |flags|
  {
    if |flags| > 0 {
      var t := Tick(p, src, s, flags[0]);
      assert OnlyTelefonos(s.db, t.db);
      assert forall id :: HasId(s.db.usuarios, id) && id !in s.reg.usuarioIds ==>
        Get(t.db.usuarios, id) == Get(s.db.usuarios, id);
      if t.Running? {
        UpdateLoopOnlyTouchesTelefonos(p, src, t, flags[1..]);
        OnlyTelefonosTransitive(s.db, t.db, Drive(p, src, t, flags[1..]).db);
      } else {
        DriveSettled(p, src, t, flags[1..]);
      }
    }
  }

  /**
    However long `slow_insert` runs, users and products are untouched,
    earlier purchases keep their rows, and no purchase dangles; the loop can
    crash only on an empty registry.
  */
  lemma {:induction false} InsertLoopKeepsReferences(src: Source, s: LoadState, flags: seq<bool>)
    requires s.Running? && RegistryValid(s.reg, s.db) && Intact(s.db)
    ensures var t := Drive(SlowInsert, src, s, flags);
      && t.db.usuarios == s.db.usuarios && t.db.productos == s.db.productos
      && Extends(s.db.usuarioProductos, t.db.usuarioProductos)
      && Intact(t.db)
      && (t.Crashed? ==> t.error == EmptyChoice)
      && (t.Running? || t.Stopped? ==> |t.db.usuarioProductos| == |s.db.usuarioProductos| + t.done - s.done)
    decreases |flags|
  {
    if |flags| > 0 {
      var t := Tick(SlowInsert, src, s, flags[0]);
      if t.Running? {
        assert Intact(t.db) && RegistryValid(t.reg, t.db);
        InsertLoopKeepsReferences(src, t, flags[1..]);
        ExtendsTransitive(s.db.usuarioProductos, t.db.usuarioProductos, Drive(SlowInsert, src, t, flags[1..]).db.usuarioProductos);
      } else {
        DriveSettled(SlowInsert, src, t, flags[1..]);
      }
    }
  }
}

=== FILE: entropy.dfy ===
/**
  Randomness as an explicit argument. Everything the scripts draw from
  Python's `random` module and from Faker is read from a `Source`: an
  arbitrary infinite tape holding one number and one string per draw. The
  caller threads a cursor `k` through the run and advances it once per draw,
  so a run is a deterministic function of its source.
*/
module Entropy {
  import opened Results
  import opened Text

  datatype Source = Source(num: nat -> nat, text: nat -> string)

  /** A value together with the cursor of the next unused draw. */
  datatype Drawn<+T> = Drawn(value: T, next: nat)

  /** `random.randint(lo, hi)`: both ends included. */
  function RandInt(src: Source, k: nat, lo: int, hi: int): (r: int)
    requires lo <= hi
    ensures lo <= r <= hi
  {
    lo + src.num(k) % (hi - lo + 1)
  }

  /** `random.choice(xs)` on a list known to be non-empty. */
  function Pick<T>(src: Source, k: nat, xs: seq<T>): (r: T)
    requires |xs| > 0
    ensures r in xs
  {
    xs[src.num(k) % |xs|]
  }

  /** `random.choice(xs)`, which raises IndexError on an empty list. */
  function Choice<T>(src: Source, k: nat, xs: seq<T>): (r: Result<T>)
    ensures r.Ok? <==> |xs| > 0
    ensures r.Ok? ==> r.value in xs
    ensures r.Err? ==> r.error == EmptyChoice
  {
    if |xs| == 0 then Err(EmptyChoice) else Ok(Pick(src, k, xs))
  }

  /** A tape that returns `n` at every draw. */
  function Constant(n: nat): Source {
    Source(_ => n, _ => "")
  }

  /** No two draws of the tape yield the same string. */
  ghost predicate TextInjective(src: Source) {
    forall i: nat, j: nat :: i != j ==> src.text(i) != src.text(j)
  }

  /** A tape whose strings are the decimal renderings of their positions. */
  function Numbered(): Source {
    Source(_ => 0, (i: nat) => Decimal(i))
  }

  /** Tapes with pairwise distinct strings exist. */
  lemma NumberedIsInjective()
    ensures TextInjective(Numbered())
  {
    forall i: nat, j: nat | i != j
      ensures Numbered().text(i) != Numbered().text(j)
    {
      if Decimal(i) == Decimal(j) {
        DecimalInjective(i, j);
      }
    }
  }

  /** No value of the range is out of reach: a suitable tape yields each one. */
  lemma RandIntReaches(lo: int, hi: int, v: int, k: nat)
    requires lo <= v <= hi
    ensures RandInt(Constant(v - lo), k, lo, hi) == v
  {
  }

  /** Every element of the list can be chosen: a suitable tape picks each one. */
  lemma PickReaches<T>(xs: seq<T>, i: nat, k: nat)
    requires i < |xs|
    ensures Pick(Constant(i), k, xs) == xs[i]
  {
  }
}

=== FILE: planner.dfy ===
/**
  The arithmetic both scripts share: a target size in MB becomes a byte
  budget, and the budget floor-divided by an estimated row size becomes the
  base row count every table's count is derived from.
*/
module Planner {

  /** Estimated size of one row, in bytes (`approx_size_per_row`). */
  const RowBytes: int := 500

  /** The size `populate` asks for, in MB (`target_size_mb`'s default). */
  const DefaultTargetMb: int := 20

  /** The target in bytes: megabytes times 1024 times 1024. */
  function TargetBytes(targetMb: int): int {
    targetMb * 1024 * 1024
  }

  /**
    The byte budget floor-divided by the row size. Python's `//` by a
    positive divisor rounds toward minus infinity, as Dafny's `/` does; the
    contract spells that rounding out.
  */
  function BaseRows(targetMb: int): (n: int)
    ensures RowBytes * n <= TargetBytes(targetMb) < RowBytes * n + RowBytes
  {
    TargetBytes(targetMb) / RowBytes
  }

  /** How many times `for _ in range(n)` runs. */
  function Times(n: int): (t: nat)
    ensures n >= 0 ==> t == n
    ensures n <= 0 ==> t == 0
  {
    if n < 0 then 0 else n
  }

  lemma MulCancel(d: int, x: int, y: int)
    requires d > 0 && d * x < d * y
    ensures x < y
  {
  }

  lemma FloorDivMonotone(a: int, b: int, d: int)
    requires a <= b && d > 0
    ensures a / d <= b / d
  {
    var q1, q2 := a / d, b / d;
    assert d * q1 <= a && b < d * q2 + d;
    MulCancel(d, q1, q2 + 1);
  }

  /** A larger target never yields a smaller base row count. */
  lemma BaseRowsMonotone(a: int, b: int)
    requires a <= b
    ensures BaseRows(a) <= BaseRows(b)
  {
    FloorDivMonotone(TargetBytes(a), TargetBytes(b), RowBytes);
  }

  /** Any positive base row count needs at least 1 MB, which gives 2097 rows. */
  lemma BaseRowsJump(targetMb: int)
    requires BaseRows(targetMb) > 0
    ensures BaseRows(targetMb) >= 2097
  {
    assert targetMb >= 1;
    assert TargetBytes(targetMb) >= 1048576;
  }
}

=== FILE: results.dfy ===
/** Error outcomes shared by both seed-and-load scripts. */
module Results {

  /** Why a generation run or a load iteration stopped early. */
  datatype Failure =
    | EmptyChoice           // `random.choice` on an empty id list raises IndexError
    | DuplicateKey          // the UNIQUE column `Usuarios.email` rejected an insert
    | ForeignKeyViolation   // a FOREIGN KEY column named an id the parent table lacks
    | UniquenessExhausted   // Faker's unique proxy found no fresh value

  /** The value of a statement or run, or the failure that aborted it. */
  datatype Result<+T> = Ok(value: T) | Err(error: Failure)

  /** An optional value, for lookups that may find nothing. */
  datatype Option<+T> = None | Some(value: T)
}

=== FILE: store.dfy ===
/**
  The storage backend as an immutable value. A table is the sequence of its
  rows in insertion order; rows are only ever appended or updated in place,
  never deleted, so the row at position i carries the AUTO_INCREMENT primary
  key i + 1 and the ids of a table are exactly 1 .. |table|.
*/
module Store {

  type Table<T> = seq<T>

  /** The table holds a row whose primary key is `id`. */
  predicate HasId<T>(t: Table<T>, id: int) {
    1 <= id <= |t|
  }

  /** The row whose primary key is `id` (`SELECT * ... WHERE id = :id`). */
  function Get<T>(t: Table<T>, id: int): T
    requires HasId(t, id)
  {
    t[id - 1]
  }

  /**
    The primary keys of `t`, listed in key order. `SELECT id FROM t` has no
    ORDER BY, so the server may list them in any order; contracts that use
    this function speak only of which keys occur and how often.
  */
  function Ids<T>(t: Table<T>): (ids: seq<int>)
    ensures |ids| == |t|
    ensures forall id :: id in ids <==> HasId(t, id)
  {
    var ids := seq(|t|, i => i + 1);
    assert forall id :: HasId(t, id) ==> ids[id - 1] == id;
    ids
  }

  /** Every key of the table is listed exactly once, and nothing else is. */
  lemma {:induction false} IdsOnce<T>(t: Table<T>)
    ensures forall id :: multiset(Ids(t))[id] == if HasId(t, id) then 1 else 0
    decreases |t|
  {
    if |t| > 0 {
      var init := t[..|t| - 1];
      IdsOnce(init);
      assert Ids(t) == Ids(init) + [|t|];
    }
  }

  /** `INSERT INTO t ...` with AUTO_INCREMENT: the new row gets the next key. */
  function Insert<T>(t: Table<T>, row: T): (r: Table<T>)
    ensures |r| == |t| + 1
    ensures HasId(r, |r|) && Get(r, |r|) == row
    ensures forall id :: HasId(t, id) ==> HasId(r, id) && Get(r, id) == Get(t, id)
  {
    t + [row]
  }

  /** `UPDATE t SET ... WHERE id = :id`; a key that matches no row changes nothing. */
  function Replace<T>(t: Table<T>, id: int, row: T): (r: Table<T>)
    ensures |r| == |t|
    ensures HasId(t, id) ==> Get(r, id) == row
    ensures forall other :: HasId(t, other) && other != id ==> Get(r, other) == Get(t, other)
    ensures !HasId(t, id) ==> r == t
  {
    if HasId(t, id) then t[id - 1 := row] else t
  }

  /** `t` is `t0` with rows appended: every earlier row keeps its key and value. */
  predicate Extends<T(==)>(t0: Table<T>, t: Table<T>) {
    |t0| <= |t| && t[..|t0|] == t0
  }

  lemma ExtendsTransitive<T>(a: Table<T>, b: Table<T>, c: Table<T>)
    requires Extends(a, b) && Extends(b, c)
    ensures Extends(a, c)
  {
    assert c[..|a|] == c[..|b|][..|a|];
  }
}

=== FILE: text.dfy ===
/**
  The string formatting the generators use: Python's `str(n)` for a
  non-negative integer and the zero-padded `{n:02d}` field, each with the
  parser that inverts it.
*/
module Text {

  predicate IsDigit(c: char) {
    '0' <= c <= '9'
  }

  predicate AllDigits(s: string) {
    forall i :: 0 <= i < |s| ==> IsDigit(s[i])
  }

  function DigitChar(d: nat): (c: char)
    requires d < 10
    ensures IsDigit(c)
  {
    (48 + d) as char
  }

  function DigitValue(c: char): (d: nat)
    requires IsDigit(c)
    ensures d < 10
  {
    c as int - 48
  }

  /** `str(n)`: decimal digits, most significant first, no leading zero. */
  function Decimal(n: nat): (s: string)
    ensures |s| >= 1 && AllDigits(s)
    ensures |s| > 1 ==> s[0] != '0'
    ensures n > 0 ==> s[0] != '0'
    ensures n < 10 <==> |s| == 1
  {
    if n < 10 then [DigitChar(n)] else Decimal(n / 10) + [DigitChar(n % 10)]
  }

  /** The value of a string of decimal digits (0 for the empty string). */
  function ParseDecimal(s: string): nat
    requires AllDigits(s)
  {
    if |s| == 0 then 0 else ParseDecimal(s[..|s| - 1]) * 10 + DigitValue(s[|s| - 1])
  }

  lemma {:induction false} DecimalRoundTrip(n: nat)
    ensures ParseDecimal(Decimal(n)) == n
  {
    if n >= 10 {
      var s := Decimal(n / 10);
      var t := s + [DigitChar(n % 10)];
      assert t[..|t| - 1] == s;
      DecimalRoundTrip(n / 10);
    }
  }

  lemma DecimalInjective(m: nat, n: nat)
    requires Decimal(m) == Decimal(n)
    ensures m == n
  {
    DecimalRoundTrip(m);
    DecimalRoundTrip(n);
  }

  /** `f"{n:02d}"` for a value below 100: exactly two digits, zero-padded. */
  function Pad2(n: nat): (s: string)
    requires n < 100
    ensures |s| == 2 && AllDigits(s)
    ensures ParseDecimal(s) == n
    ensures n >= 10 ==> s == Decimal(n)
  {
    var hi := [DigitChar(n / 10)];
    var s := hi + [DigitChar(n % 10)];
    assert s[..1] == hi && hi[..0] == [];
    assert ParseDecimal(hi) == n / 10;
    s
  }

  /** A name built as `stem` followed by one character drawn from `lo .. hi`. */
  predicate StemPlusChar(name: string, stem: string, lo: char, hi: char) {
    |name| == |stem| + 1 && name[..|stem|] == stem && lo <= name[|stem|] <= hi
  }

  /** `prefix + str(i) + sep`: the stem of a numbered name such as `Curso_7_`. */
  function NumberedStem(prefix: string, i: nat, sep: string): string {
    prefix + Decimal(i) + sep
  }

  lemma NumberedStemInjective(prefix: string, i: nat, j: nat, sep: string)
    requires NumberedStem(prefix, i, sep) == NumberedStem(prefix, j, sep)
    ensures i == j
  {
    var a := NumberedStem(prefix, i, sep);
    assert Decimal(i) == a[|prefix|..|prefix| + |Decimal(i)|];
    assert Decimal(j) == a[|prefix|..|prefix| + |Decimal(j)|];
    DecimalInjective(i, j);
  }

  /** Two names with the numbered-stem shape and different numbers differ. */
  lemma NumberedNamesDistinct(a: string, b: string, prefix: string, i: nat, j: nat, sep: string, lo: char, hi: char)
    requires StemPlusChar(a, NumberedStem(prefix, i, sep), lo, hi)
    requires StemPlusChar(b, NumberedStem(prefix, j, sep), lo, hi)
    requires i != j
    ensures a != b
  {
    if a == b {
      var si := NumberedStem(prefix, i, sep);
      var sj := NumberedStem(prefix, j, sep);
      assert |si| == |sj|;
      assert si == a[..|si|] == sj;
      NumberedStemInjective(prefix, i, j, sep);
    }
  }
}

=== FILE: university.dfy ===
/**
  The university schema of `app/test.py`: careers, courses, students,
  enrolments and grades. Its generator builds each table's rows in memory,
  inserts them with one `executemany` and commits, table by table; foreign
  keys are the positions 1 .. n of the rows it just built.
*/
module University {
  import opened Results
  import opened Store
  import opened Entropy
  import opened Text
  import opened Planner

  datatype Carrera = Carrera(nombre: string)
  datatype Curso = Curso(nombre: string, creditos: int)
  datatype Estudiante = Estudiante(nombre: string, idCarrera: int)
  datatype Matricula = Matricula(idEstudiante: int, idCurso: int, fecha: string)

  /** A `nota` row; `notaFinal` is kept in hundredths (DECIMAL(4,2)). */
  datatype Nota = Nota(idMatricula: int, notaFinal: int)

  datatype Db = Db(
    carreras: Table<Carrera>,
    cursos: Table<Curso>,
    estudiantes: Table<Estudiante>,
    matriculas: Table<Matricula>,
    notas: Table<Nota>)

  const NumCarreras: nat := 50
  const NumCursos: nat := 500

  /** `min_rows`' default: the fewest students a run inserts. */
  const DefaultMinRows: int := 500

  const Uppercase: string := "ABCDEFGHIJKLMNOPQRSTUVWXYZ"
  const Lowercase: string := "abcdefghijklmnopqrstuvwxyz"

  /** Highest grade, in hundredths: `uniform(0, 20)` rounded to two places. */
  const MaxNota: int := 2000

  // ---------------------------------------------------------------------------
  // Volume planner

  /** The base row count, raised to the floor `minRows` when it is smaller. */
  function NumRows(targetMb: int, minRows: int): (n: int)
    ensures n >= BaseRows(targetMb) && n >= minRows
    ensures n == BaseRows(targetMb) || n == minRows
  {
    if BaseRows(targetMb) >= minRows then BaseRows(targetMb) else minRows
  }

  /** The floor wins exactly when the byte budget plans fewer rows. */
  lemma FloorWins(targetMb: int, minRows: int)
    ensures NumRows(targetMb, minRows) == minRows <==> BaseRows(targetMb) <= minRows
  {
  }

  lemma NumRowsExamples()
    ensures NumRows(DefaultTargetMb, DefaultMinRows) == 41943
    ensures NumRows(0, DefaultMinRows) == 500
    ensures NumRows(-3, DefaultMinRows) == 500
  {
  }

  lemma NumRowsMonotone(a: int, b: int, minRows: int)
    requires a <= b
    ensures NumRows(a, minRows) <= NumRows(b, minRows)
  {
    BaseRowsMonotone(a, b);
  }

  // ---------------------------------------------------------------------------
  // Enrolment dates

  /** The month and day of a string shaped `2025-MM-DD`, if it has that shape. */
  function ParseFecha(s: string): Option<(nat, nat)> {
    if |s| == 10 && s[..5] == "2025-" && s[7] == '-' && AllDigits(s[5..7]) && AllDigits(s[8..])
    then Some((ParseDecimal(s[5..7]), ParseDecimal(s[8..])))
    else None
  }

  /** A `2025-MM-DD` date with a month in 1..12 and a day in 1..28. */
  predicate ValidFecha(s: string) {
    ParseFecha(s).Some? && 1 <= ParseFecha(s).value.0 <= 12 && 1 <= ParseFecha(s).value.1 <= 28
  }

  /** The enrolment date: year 2025, month and day each zero-padded to two digits. */
  function Fecha(month: nat, day: nat): (s: string)
    requires 1 <= month <= 12 && 1 <= day <= 28
    ensures |s| == 10
    ensures ParseFecha(s) == Some((month, day))
    ensures ValidFecha(s)
  {
    var mm := Pad2(month);
    var dd := Pad2(day);
    var s := "2025-" + mm + "-" + dd;
    assert s[..5] == "2025-" && s[5..7] == mm && s[8..] == dd;
    s
  }

  // ---------------------------------------------------------------------------
  // Foreign keys

  predicate EstudianteRefsOk(db: Db, e: Estudiante) {
    HasId(db.carreras, e.idCarrera)
  }

  predicate MatriculaRefsOk(db: Db, m: Matricula) {
    HasId(db.estudiantes, m.idEstudiante) && HasId(db.cursos, m.idCurso)
  }

  predicate NotaRefsOk(db: Db, n: Nota) {
    HasId(db.matriculas, n.idMatricula)
  }

  /** Every foreign key of every row names an existing row. */
  predicate Intact(db: Db) {
    && (forall i :: 0 <= i < |db.estudiantes| ==> EstudianteRefsOk(db, db.estudiantes[i]))
    && (forall i :: 0 <= i < |db.matriculas| ==> MatriculaRefsOk(db, db.matriculas[i]))
    && (forall i :: 0 <= i < |db.notas| ==> NotaRefsOk(db, db.notas[i]))
  }

  // ---------------------------------------------------------------------------
  // Batch inserts: one `executemany`, all rows or none

  /** The career batch: no foreign key, so it is never rejected. */
  function InsertCarreras(db: Db, rows: seq<Carrera>): (r: Db)
    ensures |r.carreras| == |db.carreras| + |rows| && Extends(db.carreras, r.carreras)
    ensures r.carreras[|db.carreras|..] == rows
    ensures r == db.(carreras := r.carreras)
    ensures Intact(db) ==> Intact(r)
  {
    db.(carreras := db.carreras + rows)
  }

  /** The course batch: no foreign key, so it is never rejected. */
  function InsertCursos(db: Db, rows: seq<Curso>): (r: Db)
    ensures |r.cursos| == |db.cursos| + |rows| && Extends(db.cursos, r.cursos)
    ensures r.cursos[|db.cursos|..] == rows
    ensures r == db.(cursos := r.cursos)
    ensures Intact(db) ==> Intact(r)
  {
    db.(cursos := db.cursos + rows)
  }

  function InsertEstudiantes(db: Db, rows: seq<Estudiante>): (r: Result<Db>)
    ensures r.Ok? <==> forall i :: 0 <= i < |rows| ==> EstudianteRefsOk(db, rows[i])
    ensures r.Err? ==> r.error == ForeignKeyViolation
    ensures r.Ok? ==> r.value == db.(estudiantes := db.estudiantes + rows)
    ensures r.Ok? && Intact(db) ==> Intact(r.value)
  {
    if forall i :: 0 <= i < |rows| ==> EstudianteRefsOk(db, rows[i])
    then
      var db' := db.(estudiantes := db.estudiantes + rows);
      assert forall i :: 0 <= i < |db'.matriculas| ==> MatriculaRefsOk(db, db'.matriculas[i]) ==> MatriculaRefsOk(db', db'.matriculas[i]);
      Ok(db')
    else Err(ForeignKeyViolation)
  }

  function InsertMatriculas(db: Db, rows: seq<Matricula>): (r: Result<Db>)
    ensures r.Ok? <==> forall i :: 0 <= i < |rows| ==> MatriculaRefsOk(db, rows[i])
    ensures r.Err? ==> r.error == ForeignKeyViolation
    ensures r.Ok? ==> r.value == db.(matriculas := db.matriculas + rows)
    ensures r.Ok? && Intact(db) ==> Intact(r.value)
  {
    if forall i :: 0 <= i < |rows| ==> MatriculaRefsOk(db, rows[i])
    then
      var db' := db.(matriculas := db.matriculas + rows);
      assert forall i :: 0 <= i < |db'.notas| ==> NotaRefsOk(db, db'.notas[i]) ==> NotaRefsOk(db', db'.notas[i]);
      Ok(db')
    else Err(ForeignKeyViolation)
  }

  function InsertNotas(db: Db, rows: seq<Nota>): (r: Result<Db>)
    ensures r.Ok? <==> forall i :: 0 <= i < |rows| ==> NotaRefsOk(db, rows[i])
    ensures r.Err? ==> r.error == ForeignKeyViolation
    ensures r.Ok? ==> r.value == db.(notas := db.notas + rows)
    ensures r.Ok? && Intact(db) ==> Intact(r.value)
  {
    if forall i :: 0 <= i < |rows| ==> NotaRefsOk(db, rows[i])
    then Ok(db.(notas := db.notas + rows))
    else Err(ForeignKeyViolation)
  }

  // ---------------------------------------------------------------------------
  // Row synthesis

  /** The fifty career names, `Carrera 1` to `Carrera 50`. */
  function CarreraNames(): (names: seq<string>)
    ensures |names| == NumCarreras
    ensures forall i :: 0 <= i < |names| ==>
      |names[i]| > 8 && names[i][..8] == "Carrera " && AllDigits(names[i][8..]) && ParseDecimal(names[i][8..]) == i + 1
    ensures forall i :: 0 <= i < |names| ==> |names[i]| > 8 && names[i][8] != '0'
  {
    var names := seq(NumCarreras, i requires 0 <= i => "Carrera " + Decimal(i + 1));
    forall i | 0 <= i < |names|
      ensures |names[i]| > 8 && names[i][..8] == "Carrera " && AllDigits(names[i][8..]) && ParseDecimal(names[i][8..]) == i + 1
      ensures names[i][8] != '0'
    {
      assert names[i][8..] == Decimal(i + 1);
      DecimalRoundTrip(i + 1);
    }
    names
  }

  /** The fifty career names are pairwise distinct. */
  lemma CarreraNamesDistinct(i: int, j: int)
    requires 0 <= i < j < NumCarreras
    ensures CarreraNames()[i] != CarreraNames()[j]
  {
  }

  /** A course name `Curso_{i}_{X}` with one upper-case letter X. */
  predicate CursoNamed(name: string, i: nat) {
    StemPlusChar(name, NumberedStem("Curso_", i, "_"), 'A', 'Z')
  }

  /** A student name `Estudiante_{i}_{x}` with one lower-case letter x. */
  predicate EstudianteNamed(name: string, i: nat) {
    StemPlusChar(name, NumberedStem("Estudiante_", i, "_"), 'a', 'z')
  }

  lemma UppercaseLetters()
    ensures forall c :: c in Uppercase ==> 'A' <= c <= 'Z'
  {
  }

  lemma LowercaseLetters()
    ensures forall c :: c in Lowercase ==> 'a' <= c <= 'z'
  {
  }

  /** The courses loop: 500 courses, the i-th named `Curso_{i}_{X}`, with 1 to 5 credits. */
  method GenCursos(src: Source, k0: nat) returns (cs: seq<Curso>, k: nat)
    ensures |cs| == NumCursos
    ensures forall j :: 0 <= j < |cs| ==> CursoNamed(cs[j].nombre, j + 1) && 1 <= cs[j].creditos <= 5
  {
    UppercaseLetters();
    cs := [];
    k := k0;
    var i := 1;
    while i <= NumCursos
      invariant 1 <= i <= NumCursos + 1
      invariant |cs| == i - 1
      invariant forall j :: 0 <= j < |cs| ==> CursoNamed(cs[j].nombre, j + 1) && 1 <= cs[j].creditos <= 5
    {
      var letter := Pick(src, k, Uppercase);
      var nombre := NumberedStem("Curso_", i, "_") + [letter];
      cs := cs + [Curso(nombre, RandInt(src, k + 1, 1, 5))];
      k := k + 2;
      i := i + 1;
    }
  }

  /** The students loop: `n` students, the i-th (from 0) named `Estudiante_{i}_{x}`, each in a career 1..50. */
  method GenEstudiantes(n: nat, src: Source, k0: nat) returns (es: seq<Estudiante>, k: nat)
    ensures |es| == n
    ensures forall j :: 0 <= j < |es| ==> EstudianteNamed(es[j].nombre, j) && 1 <= es[j].idCarrera <= NumCarreras
  {
    LowercaseLetters();
    es := [];
    k := k0;
    while |es| < n
      invariant |es| <= n
      invariant forall j :: 0 <= j < |es| ==> EstudianteNamed(es[j].nombre, j) && 1 <= es[j].idCarrera <= NumCarreras
    {
      var letter := Pick(src, k, Lowercase);
      var nombre := NumberedStem("Estudiante_", |es|, "_") + [letter];
      es := es + [Estudiante(nombre, RandInt(src, k + 1, 1, NumCarreras))];
      k := k + 2;
    }
  }

  /** No two students share a name. */
  predicate NamesDistinct(es: seq<Estudiante>) {
    forall i, j :: 0 <= i < j < |es| ==> es[i].nombre != es[j].nombre
  }

  /** Names numbered by position never repeat. */
  lemma EstudianteNamesDistinct(es: seq<Estudiante>)
    requires forall x :: 0 <= x < |es| ==> EstudianteNamed(es[x].nombre, x)
    ensures NamesDistinct(es)
  {
    forall i, j | 0 <= i < j < |es|
      ensures es[i].nombre != es[j].nombre
    {
      NumberedNamesDistinct(es[i].nombre, es[j].nombre, "Estudiante_", i, j, "_", 'a', 'z');
    }
  }

  /** How many enrolments in `ms` belong to student `e`. */
  function CountFor(ms: seq<Matricula>, e: int): nat
    decreases |ms|
  {
    if |ms| == 0 then 0
    else CountFor(ms[..|ms| - 1], e) + (if ms[|ms| - 1].idEstudiante == e then 1 else 0)
  }

  lemma CountForAppend(ms: seq<Matricula>, m: Matricula)
    ensures forall e :: CountFor(ms + [m], e) == CountFor(ms, e) + (if m.idEstudiante == e then 1 else 0)
  {
    assert (ms + [m])[..|ms|] == ms;
  }

  lemma {:induction false} CountForAbsent(ms: seq<Matricula>, e: int)
    requires forall i :: 0 <= i < |ms| ==> ms[i].idEstudiante != e
    ensures CountFor(ms, e) == 0
    decreases |ms|
  {
    if |ms| > 0 {
      CountForAbsent(ms[..|ms| - 1], e);
    }
  }

  predicate MatriculaInRange(m: Matricula, nEst: int) {
    1 <= m.idEstudiante <= nEst && 1 <= m.idCurso <= NumCursos && ValidFecha(m.fecha)
  }

  /**
    The enrolments loop: each student id 1..nEst takes between 1 and 5
    courses, each a course id 1..500 with a 2025 date.
  */
  method GenMatriculas(nEst: nat, src: Source, k0: nat) returns (ms: seq<Matricula>, k: nat)
    ensures nEst <= |ms| <= 5 * nEst
    ensures forall e :: 1 <= e <= nEst ==> 1 <= CountFor(ms, e) <= 5
    ensures forall i :: 0 <= i < |ms| ==> MatriculaInRange(ms[i], nEst)
  {
    ms := [];
    k := k0;
    var est := 1;
    while est <= nEst
      invariant 1 <= est <= nEst + 1
      invariant est - 1 <= |ms| <= 5 * (est - 1)
      invariant forall e :: 1 <= e < est ==> 1 <= CountFor(ms, e) <= 5
      invariant forall i :: 0 <= i < |ms| ==> MatriculaInRange(ms[i], nEst) && ms[i].idEstudiante < est
    {
      var numCursos := RandInt(src, k, 1, 5);
      k := k + 1;
      ghost var before := ms;
      CountForAbsent(before, est);
      var j := 0;
      while j < numCursos
        invariant 0 <= j <= numCursos
        invariant |ms| == |before| + j
        invariant CountFor(ms, est) == j
        invariant forall e :: e != est ==> CountFor(ms, e) == CountFor(before, e)
        invariant forall i :: 0 <= i < |ms| ==> MatriculaInRange(ms[i], nEst) && ms[i].idEstudiante <= est
      {
        var idCurso := RandInt(src, k, 1, NumCursos);
        var fecha := Fecha(RandInt(src, k + 1, 1, 12), RandInt(src, k + 2, 1, 28));
        var m := Matricula(est, idCurso, fecha);
        CountForAppend(ms, m);
        ms := ms + [m];
        k := k + 3;
        j := j + 1;
      }
      est := est + 1;
    }
  }

  /** The grades: one per enrolment id, in order, each 0.00 .. 20.00. */
  method GenNotas(matriculaIds: seq<int>, src: Source, k0: nat) returns (ns: seq<Nota>, k: nat)
    ensures |ns| == |matriculaIds|
    ensures forall j :: 0 <= j < |ns| ==> ns[j].idMatricula == matriculaIds[j] && 0 <= ns[j].notaFinal <= MaxNota
  {
    ns := [];
    k := k0;
    while |ns| < |matriculaIds|
      invariant |ns| <= |matriculaIds|
      invariant forall j :: 0 <= j < |ns| ==> ns[j].idMatricula == matriculaIds[j] && 0 <= ns[j].notaFinal <= MaxNota
    {
      ns := ns + [Nota(matriculaIds[|ns|], RandInt(src, k, 0, MaxNota))];
      k := k + 1;
    }
  }

  // ---------------------------------------------------------------------------
  // Relational generator

  predicate Fresh(db: Db) {
    db.carreras == [] && db.cursos == [] && db.estudiantes == [] && db.matriculas == [] && db.notas == []
  }

  /** The enrolment ids the grades name, in grade order. */
  function GradedIds(ns: seq<Nota>): (ids: seq<int>)
    ensures |ids| == |ns|
    ensures forall j :: 0 <= j < |ns| ==> ids[j] == ns[j].idMatricula
  {
    seq(|ns|, j requires 0 <= j < |ns| => ns[j].idMatricula)
  }

  /**
    The order in which the server returns the rows of a query without
    ORDER BY: any rearrangement of them.
  */
  type RowOrder = seq<int> -> seq<int>

  ghost predicate Reorders(order: RowOrder) {
    forall ids :: multiset(order(ids)) == multiset(ids)
  }

  /** The grades name the enrolment ids, whatever their order. */
  predicate OneNotaPerMatricula(db: Db) {
    multiset(GradedIds(db.notas)) == multiset(Ids(db.matriculas))
  }

  /**
    Under `OneNotaPerMatricula` there are as many grades as enrolments,
    each enrolment has exactly one grade, and no grade names a missing
    enrolment.
  */
  lemma GradesOncePerMatricula(db: Db)
    requires OneNotaPerMatricula(db)
    ensures |db.notas| == |db.matriculas|
    ensures forall id :: HasId(db.matriculas, id) ==> multiset(GradedIds(db.notas))[id] == 1
    ensures forall j :: 0 <= j < |db.notas| ==> NotaRefsOk(db, db.notas[j])
  {
    IdsOnce(db.matriculas);
    assert |GradedIds(db.notas)| == |multiset(Ids(db.matriculas))|;
    forall j | 0 <= j < |db.notas|
      ensures NotaRefsOk(db, db.notas[j])
    {
      assert GradedIds(db.notas)[j] in multiset(GradedIds(db.notas));
    }
  }

  /** The new careers are the fifty generated names and the new courses are named and credited as generated. */
  predicate NewCatalogAsGenerated(db: Db, db': Db)
    requires |db.carreras| + NumCarreras == |db'.carreras| && |db.cursos| + NumCursos == |db'.cursos|
  {
    && (forall j :: |db.carreras| <= j < |db'.carreras| ==> db'.carreras[j] == Carrera(CarreraNames()[j - |db.carreras|]))
    && (forall j :: |db.cursos| <= j < |db'.cursos| ==>
         CursoNamed(db'.cursos[j].nombre, j - |db.cursos| + 1) && 1 <= db'.cursos[j].creditos <= 5)
  }

  /**
    The first two batches: the fifty careers, then the five hundred
    courses. Neither table has a foreign key, so neither batch can be
    rejected.
  */
  method SeedCatalog(db: Db, src: Source, k0: nat) returns (r: Db, k: nat)
    ensures r.estudiantes == db.estudiantes && r.matriculas == db.matriculas && r.notas == db.notas
    ensures |r.carreras| == |db.carreras| + NumCarreras && Extends(db.carreras, r.carreras)
    ensures |r.cursos| == |db.cursos| + NumCursos && Extends(db.cursos, r.cursos)
    ensures NewCatalogAsGenerated(db, r)
    ensures Intact(db) ==> Intact(r)
  {
    var carreras := seq(NumCarreras, i requires 0 <= i < NumCarreras => Carrera(CarreraNames()[i]));
    var db1 := InsertCarreras(db, carreras);
    var cursos;
    cursos, k := GenCursos(src, k0);
    r := InsertCursos(db1, cursos);
  }

  /** The new students are named by position and belong to careers 1..50. */
  predicate NewStudentsAsGenerated(db: Db, db': Db)
    requires |db.estudiantes| <= |db'.estudiantes|
  {
    forall j :: |db.estudiantes| <= j < |db'.estudiantes| ==>
      EstudianteNamed(db'.estudiantes[j].nombre, j - |db.estudiantes|) && 1 <= db'.estudiantes[j].idCarrera <= NumCarreras
  }

  /** The new enrolments give each student id 1..n between one and five courses. */
  predicate NewEnrolmentsAsGenerated(db: Db, db': Db, n: nat)
    requires |db.matriculas| <= |db'.matriculas|
  {
    && (forall j :: |db.matriculas| <= j < |db'.matriculas| ==> MatriculaInRange(db'.matriculas[j], n))
    && (forall e :: 1 <= e <= n ==> 1 <= CountFor(db'.matriculas[|db.matriculas|..], e) <= 5)
  }

  /**
    The student and enrolment batches. Their positional foreign keys name
    careers 1..50, courses 1..500 and students 1..n, all of which exist
    once the catalogue and the students are in, so neither batch is
    rejected.
  */
  method SeedEnrolments(db: Db, n: nat, src: Source, k0: nat) returns (r: Db, k: nat)
    requires |db.carreras| >= NumCarreras && |db.cursos| >= NumCursos
    ensures r.carreras == db.carreras && r.cursos == db.cursos && r.notas == db.notas
    ensures |r.estudiantes| == |db.estudiantes| + n && Extends(db.estudiantes, r.estudiantes)
    ensures |db.matriculas| + n <= |r.matriculas| <= |db.matriculas| + 5 * n && Extends(db.matriculas, r.matriculas)
    ensures NewStudentsAsGenerated(db, r) && NewEnrolmentsAsGenerated(db, r, n)
    ensures Intact(db) ==> Intact(r)
  {
    var estudiantes;
    estudiantes, k := GenEstudiantes(n, src, k0);
    var ins := InsertEstudiantes(db, estudiantes);
    assert ins.Ok?;
    var db1 := ins.value;
    var matriculas;
    matriculas, k := GenMatriculas(n, src, k);
    var ins' := InsertMatriculas(db1, matriculas);
    assert ins'.Ok?;
    r := ins'.value;
    assert r.matriculas[|db.matriculas|..] == matriculas;
  }

  /**
    The grade batch: one grade for every enrolment id read back from the
    table, older enrolments included, in whatever order the server lists
    them. The ids come from the table itself, so the batch is not rejected.
  */
  method SeedNotas(db: Db, order: RowOrder, src: Source, k0: nat) returns (r: Db, k: nat)
    requires Reorders(order)
    ensures r == db.(notas := r.notas)
    ensures |r.notas| == |db.notas| + |db.matriculas| && Extends(db.notas, r.notas)
    ensures multiset(GradedIds(r.notas[|db.notas|..])) == multiset(Ids(db.matriculas))
    ensures forall j :: |db.notas| <= j < |r.notas| ==> 0 <= r.notas[j].notaFinal <= MaxNota
    ensures Intact(db) ==> Intact(r)
  {
    var scan := order(Ids(db.matriculas));
    assert multiset(scan) == multiset(Ids(db.matriculas));
    var notas;
    notas, k := GenNotas(scan, src, k0);
    assert GradedIds(notas) == scan;
    forall j | 0 <= j < |notas|
      ensures NotaRefsOk(db, notas[j])
    {
      assert scan[j] in multiset(scan);
    }
    var ins := InsertNotas(db, notas);
    assert ins.Ok?;
    r := ins.value;
    assert r.notas[|db.notas|..] == notas;
  }

  /**
    `populate_data`: careers, courses, students, enrolments, grades, each
    batch committed on its own, so a rejected batch would leave the earlier
    ones in place. The returned database is what was committed and
    `failure` would name the rejected batch; positional foreign keys always
    name existing rows, so the contract proves that no batch is rejected.
  */
  method PopulateData(db: Db, targetMb: int, minRows: int, order: RowOrder, src: Source) returns (r: Db, failure: Option<Failure>)
    requires Reorders(order)
    ensures failure == None
    ensures |r.carreras| == |db.carreras| + NumCarreras && Extends(db.carreras, r.carreras)
    ensures |r.cursos| == |db.cursos| + NumCursos && Extends(db.cursos, r.cursos)
    ensures |r.estudiantes| == |db.estudiantes| + Times(NumRows(targetMb, minRows)) && Extends(db.estudiantes, r.estudiantes)
    ensures |db.matriculas| + Times(NumRows(targetMb, minRows)) <= |r.matriculas| <= |db.matriculas| + 5 * Times(NumRows(targetMb, minRows))
    ensures Extends(db.matriculas, r.matriculas)
    ensures |r.notas| == |db.notas| + |r.matriculas| && Extends(db.notas, r.notas)
    ensures NewCatalogAsGenerated(db, r) && NewStudentsAsGenerated(db, r)
    ensures NewEnrolmentsAsGenerated(db, r, Times(NumRows(targetMb, minRows)))
    ensures multiset(GradedIds(r.notas[|db.notas|..])) == multiset(Ids(r.matriculas))
    ensures forall j :: |db.notas| <= j < |r.notas| ==> 0 <= r.notas[j].notaFinal <= MaxNota
    ensures Intact(db) ==> Intact(r)
    ensures Fresh(db) ==> Intact(r) && OneNotaPerMatricula(r)
  {
    var n := Times(NumRows(targetMb, minRows));
    var db1, k := SeedCatalog(db, src, 0);
    var db2, k2 := SeedEnrolments(db1, n, src, k);
    r, k := SeedNotas(db2, order, src, k2);
    failure := None;
    if Fresh(db) {
      assert r.notas[|db.notas|..] == r.notas;
    }
  }

  // ---------------------------------------------------------------------------
  // Counting and the populate guard

  datatype Counts = Counts(carreras: nat, cursos: nat, estudiantes: nat, matriculas: nat, notas: nat)

  /** `SELECT COUNT(*)` on each of the five tables. */
  function CountRecords(db: Db): (c: Counts)
    ensures c.carreras == |Ids(db.carreras)| && c.cursos == |Ids(db.cursos)|
    ensures c.estudiantes == |Ids(db.estudiantes)| && c.matriculas == |Ids(db.matriculas)|
    ensures c.notas == |Ids(db.notas)|
  {
    Counts(|db.carreras|, |db.cursos|, |db.estudiantes|, |db.matriculas|, |db.notas|)
  }

  predicate AllPopulated(c: Counts) {
    c.carreras > 0 && c.cursos > 0 && c.estudiantes > 0 && c.matriculas > 0 && c.notas > 0
  }

  /**
    `populate`: nothing happens when every table already has a row;
    otherwise a run with the default target and floor is committed on top
    of whatever is there.
  */
  method Populate(db: Db, order: RowOrder, src: Source) returns (r: Db)
    requires Reorders(order)
    ensures r == db <==> AllPopulated(CountRecords(db))
    ensures Fresh(db) ==> var c := CountRecords(r);
      && c.carreras == 50 && c.cursos == 500 && c.estudiantes == 41943
      && 41943 <= c.matriculas <= 5 * 41943 && c.notas == c.matriculas
    ensures Fresh(db) ==> Intact(r) && OneNotaPerMatricula(r)
    ensures !AllPopulated(CountRecords(db)) ==> var c := CountRecords(r);
      && c.carreras == |db.carreras| + 50 && c.cursos == |db.cursos| + 500
      && c.estudiantes == |db.estudiantes| + 41943
      && |db.matriculas| + 41943 <= c.matriculas <= |db.matriculas| + 5 * 41943
      && c.notas == |db.notas| + c.matriculas
    ensures !AllPopulated(CountRecords(db)) ==>
      && Extends(db.carreras, r.carreras) && Extends(db.cursos, r.cursos)
      && Extends(db.estudiantes, r.estudiantes) && Extends(db.matriculas, r.matriculas)
      && Extends(db.notas, r.notas)
    ensures Intact(db) ==> Intact(r)
  {
    if AllPopulated(CountRecords(db)) {
      return db;
    }
    NumRowsExamples();
    var failure;
    r, failure := PopulateData(db, DefaultTargetMb, DefaultMinRows, order, src);
  }
}

=== FILE: university_query.dfy ===
/**
  One iteration of `query_1` in `app/test.py`: the number of distinct
  student names reached from grades between 10 and 15. The source walks
  the matching grades and issues one lookup per grade for the enrolment and
  one for the student; the set-based join below is the reference it is
  proved equal to.
*/
module UniversityQuery {
  import opened Store
  import opened University

  /** `nota_final BETWEEN 10 AND 15`, both ends included, in hundredths. */
  predicate InBand(notaFinal: int) {
    1000 <= notaFinal <= 1500
  }

  /** Grade `i` passes the filter and both of its lookups find a row. */
  predicate Reaches(db: Db, i: int) {
    && 0 <= i < |db.notas|
    && InBand(db.notas[i].notaFinal)
    && HasId(db.matriculas, db.notas[i].idMatricula)
    && HasId(db.estudiantes, Get(db.matriculas, db.notas[i].idMatricula).idEstudiante)
  }

  /** The student name grade `i` leads to. */
  function NameVia(db: Db, i: int): string
    requires Reaches(db, i)
  {
    Get(db.estudiantes, Get(db.matriculas, db.notas[i].idMatricula).idEstudiante).nombre
  }

  /** The names reached from the first `n` grades. */
  function ReachedNames(db: Db, n: int): set<string>
    requires 0 <= n <= |db.notas|
  {
    set i | 0 <= i < n && Reaches(db, i) :: NameVia(db, i)
  }

  /**
    `SELECT DISTINCT e.nombre FROM nota n JOIN matricula m ON ... JOIN
    estudiante e ON ... WHERE n.nota_final BETWEEN 10 AND 15`.
  */
  function ReferenceNames(db: Db): set<string> {
    set n, m, e | 0 <= n < |db.notas| && 0 <= m < |db.matriculas| && 0 <= e < |db.estudiantes|
                  && InBand(db.notas[n].notaFinal)
                  && db.notas[n].idMatricula == m + 1
                  && db.matriculas[m].idEstudiante == e + 1
      :: db.estudiantes[e].nombre
  }

  lemma ReachedIsReference(db: Db)
    ensures ReachedNames(db, |db.notas|) == ReferenceNames(db)
  {
    forall name | name in ReferenceNames(db)
      ensures name in ReachedNames(db, |db.notas|)
    {
      var n, m, e :| 0 <= n < |db.notas| && 0 <= m < |db.matriculas| && 0 <= e < |db.estudiantes|
                     && InBand(db.notas[n].notaFinal)
                     && db.notas[n].idMatricula == m + 1
                     && db.matriculas[m].idEstudiante == e + 1
                     && name == db.estudiantes[e].nombre;
      assert Reaches(db, n) && NameVia(db, n) == name;
    }
    forall name | name in ReachedNames(db, |db.notas|)
      ensures name in ReferenceNames(db)
    {
      var i :| 0 <= i < |db.notas| && Reaches(db, i) && NameVia(db, i) == name;
      var m := db.notas[i].idMatricula - 1;
      var e := db.matriculas[m].idEstudiante - 1;
      assert name == db.estudiantes[e].nombre;
    }
  }

  /**
    The loop of `query_1`: a grade whose enrolment or student is missing
    adds nothing; the printed count is the size of the name set.
  */
  method Query1(db: Db) returns (count: nat)
    ensures count == |ReferenceNames(db)|
  {
    var names: set<string> := {};
    var i := 0;
    while i < |db.notas|
      invariant 0 <= i <= |db.notas|
      invariant names == ReachedNames(db, i)
    {
      var nota := db.notas[i];
      if InBand(nota.notaFinal) && HasId(db.matriculas, nota.idMatricula) {
        var idEstudiante := Get(db.matriculas, nota.idMatricula).idEstudiante;
        if HasId(db.estudiantes, idEstudiante) {
          names := names + {Get(db.estudiantes, idEstudiante).nombre};
        }
      }
      assert ReachedNames(db, i + 1) == ReachedNames(db, i) + (if Reaches(db, i) then {NameVia(db, i)} else {});
      i := i + 1;
    }
    ReachedIsReference(db);
    count := |names|;
  }

  /** The ids of the students reached from grades in the band. */
  function ReferenceStudents(db: Db): set<int> {
    set n, m | 0 <= n < |db.notas| && 0 <= m < |db.matriculas|
               && InBand(db.notas[n].notaFinal)
               && db.notas[n].idMatricula == m + 1
               && HasId(db.estudiantes, db.matriculas[m].idEstudiante)
      :: db.matriculas[m].idEstudiante
  }

  function NamesOf(db: Db, ids: set<int>): set<string>
    requires forall id :: id in ids ==> HasId(db.estudiantes, id)
  {
    set id | id in ids :: Get(db.estudiantes, id).nombre
  }

  lemma HasElement(ids: set<int>)
    requires |ids| > 0
    ensures exists x :: x in ids
  {
    if forall x :: x !in ids {
      assert false;
    }
  }

  lemma {:induction false} NamesOfSize(db: Db, ids: set<int>)
    requires forall id :: id in ids ==> HasId(db.estudiantes, id)
    requires NamesDistinct(db.estudiantes)
    ensures |NamesOf(db, ids)| == |ids|
    decreases |ids|
  {
    if |ids| > 0 {
      HasElement(ids);
      var x :| x in ids;
      var rest := ids - {x};
      NamesOfSize(db, rest);
      assert NamesOf(db, ids) == NamesOf(db, rest) + {Get(db.estudiantes, x).nombre};
      assert Get(db.estudiantes, x).nombre !in NamesOf(db, rest);
    }
  }

  lemma NamesOfStudentsAreReferenceNames(db: Db)
    ensures NamesOf(db, ReferenceStudents(db)) <= ReferenceNames(db)
  {
    var ids := ReferenceStudents(db);
    forall name | name in NamesOf(db, ids)
      ensures name in ReferenceNames(db)
    {
      var id :| id in ids && Get(db.estudiantes, id).nombre == name;
      var n, m :| 0 <= n < |db.notas| && 0 <= m < |db.matriculas|
                  && InBand(db.notas[n].notaFinal)
                  && db.notas[n].idMatricula == m + 1
                  && HasId(db.estudiantes, db.matriculas[m].idEstudiante)
                  && id == db.matriculas[m].idEstudiante;
      assert db.estudiantes[id - 1].nombre == name;
    }
  }

  lemma ReferenceNamesAreNamesOfStudents(db: Db)
    ensures ReferenceNames(db) <= NamesOf(db, ReferenceStudents(db))
  {
    forall name | name in ReferenceNames(db)
      ensures name in NamesOf(db, ReferenceStudents(db))
    {
      var n, m, e :| 0 <= n < |db.notas| && 0 <= m < |db.matriculas| && 0 <= e < |db.estudiantes|
                     && InBand(db.notas[n].notaFinal)
                     && db.notas[n].idMatricula == m + 1
                     && db.matriculas[m].idEstudiante == e + 1
                     && name == db.estudiantes[e].nombre;
      assert e + 1 in ReferenceStudents(db);
    }
  }

  /**
    When student names are distinct, as the generator makes them, the count
    `query_1` prints is the number of distinct students with a grade in the
    band.
  */
  lemma Query1CountsStudents(db: Db)
    requires NamesDistinct(db.estudiantes)
    ensures |ReferenceNames(db)| == |ReferenceStudents(db)|
  {
    NamesOfStudentsAreReferenceNames(db);
    ReferenceNamesAreNamesOfStudents(db);
    assert ReferenceNames(db) == NamesOf(db, ReferenceStudents(db));
    NamesOfSize(db, ReferenceStudents(db));
  }
}
